=== FILE: README.md ===
# Per-guild playback queue of a Discord music bot, in Dafny

This project models the core of `bot.py`: each guild's entry in the
`music_queues` dictionary, and every command that changes that entry. An entry
holds the pending `queue` (front first), the history `prev_songs` and the
`"Loop"` flag. The last history entry is the track that is playing; nothing
else records it. The model covers:

- the state part of `play_next_in_queue` (Advance). It runs when a command
  finds the sink idle, and again from the `after` callback each time a track
  ends or the sink is stopped;
- the enqueueing commands `play`, `play-next`, `play-file` and `play-album`.
  Each creates the guild entry lazily;
- `skip` and `prev` (slash commands and buttons), and `stop`/`leave`;
- the loop commands and the loop button;
- `minimize_info`, which reduces resolver metadata to a track;
- `format_queue`, the text of the `/queue` command.

Layout:

- `options.dfy`: module `Options`, the `Option` type.
- `text.dfy`: module `Text`, the Python builtins the code relies on, written
  out: `strip`, `replace(p, "")`, `split(c)[0]`, `split(c)[-1]`, the slice
  `xs[:n]` with negative `n`, `[::-1]` and `str(n)`.
- `tracks.dfy`: module `Tracks`, the resolver's `Info` dictionary, the reduced
  `Track`, `minimize_info` and the `play-file` title.
- `queue_view.dfy`: module `QueueView`, `format_queue`.
- `playback.dfy`: module `Playback`, a guild entry as a value (`GuildState`)
  and every change to it as a function.
- `playback_laws.dfy`: module `PlaybackLaws`, the properties of those
  functions.
- `guild_queue.dfy`: module `GuildQueues`, class `GuildQueue` with `seq`
  fields that its methods update in place. Each method is proved equal to its
  `Playback` function.
- `registry.dfy`: module `Registries`, class `Registry` holding
  `map<GuildId, GuildQueue>`, and the command handlers. Each handler changes
  one guild's entry and nothing else.

Inputs the code reads from outside become parameters:

- A resolver answer is an `Option<Info>`; `None` stands for `get_info` failing.
- A playlist is an `Option<seq<Option<Info>>>`: the resolution of each entry.
- The voice client is a `Sink`: whether a client exists (`present`), whether
  it `is_connected()`, `is_playing()` or `is_paused()`, and whether joining
  the user's channel would succeed.
- The completion callback is an explicit call. `skip` and `prev` make it at
  the point where they stop the sink. `Registry.Finished` is the callback for
  a track that ended on its own.

The bot itself decides a few things that are easy to get wrong, and the model
follows the code on each:

- A history with 500 entries after an append loses its oldest entry, so the
  history never holds more than 499 tracks.
- The track is dequeued before the connection is tried. A failed connect
  leaves it in the history, unplayed.
- A picked track whose url is `None` makes `current_song_info["url"].startswith`
  raise AttributeError. The track has already moved to the history (or stays
  there, under loop), nothing plays, and `play-album` ends at that point.
- With loop on, Advance replays the last history entry only while the queue
  is non-empty. With an empty queue nothing replays, because `"current_song"`
  is never written.
- Loop on with an empty history makes `prev_songs[-1]` raise IndexError. This
  happens after `stop` followed by `play`, because stop does not reset the
  loop flag. The track stays queued and `play-album` ends at that point.
- `prev` needs at least two history entries. When the sink is playing, it
  moves two entries to the queue front and stops the sink.
- `prev` with loop on does not replay the previous track. The completion
  replays the history entry two before the one that was playing. With exactly
  two history entries the history is left empty, so the completion raises
  IndexError.
- `skip` with loop on and a non-empty queue replays the same track; with an
  empty queue nothing replays.
- An entry created by an enqueueing command has no `"prev_songs"` key until
  the first Advance. Until then `prev` and `stop`/`leave` raise KeyError
  (stop has already emptied the queue at that point). `/queue` raises
  TypeError for a non-empty queue.
- `stop`/`leave` clear queue and history of any existing entry, even when
  they answer "Nichts zu stoppen".

## Model

| member | source | states |
|---|---|---|
| `Text.Strip` | bot.py:83 | `str.strip()`: the result is the infix of the input between the maximal whitespace runs at both ends, and it neither starts nor ends with whitespace |
| `Text.RemoveAll` | bot.py:82 | `str.replace(p, "")`: never longer than the input, uses only its characters, equals the input when `p` does not occur, and contains no `c` when `p` is the single character `c` |
| `Text.RemoveAllShrinks` | bot.py:82 | when `p` occurs, at least one occurrence is removed: the result is shorter by at least `len(p)` |
| `Text.RemoveCharCounts` | bot.py:85 | `replace("-", "")` drops every dash and keeps every other character as often as it occurred |
| `Text.RemoveAllLeading` | bot.py:82 | an occurrence of `p` at the front is removed and the scan goes on after it |
| `Text.StripPadded` | bot.py:83 | `strip()` of a string padded only with whitespace gives the unpadded string |
| `Text.BeforeFirst` | bot.py:386 | `split(c)[0]`: the longest prefix without `c` |
| `Text.BeforeFirstAt` | bot.py:386 | `split(c)[0]` is the part before the first occurrence of `c` |
| `Text.AfterLast` | bot.py:386 | `split(c)[-1]`: the longest suffix without `c` |
| `Text.SliceStop` | bot.py:100-112 | where Python's `xs[:n]` stops: at `n` capped by the length, or for negative `n` at `len+n`, floored at 0 |
| `Text.PySlice` | bot.py:100-112 | `xs[:n]` is the prefix of `xs` that ends at that stop |
| `Text.Reverse` | bot.py:109 | `xs[::-1]` has the same length and holds at position `i` the element at `len-1-i` |
| `Text.NatToString` | bot.py:116 | the count in `f"... {n} - weitere Songs"` is a non-empty string of decimal digits, with no leading zero unless `n` is 0 |
| `Text.NatToStringRoundTrip` | bot.py:116 | reading those digits back as a decimal number gives `n` |
| `Tracks.FirstFilled` | bot.py:77-78 | the `a or b or c.get(k, "")` chain: the first non-empty value, and `""` exactly when none is non-empty |
| `Tracks.WithoutArtist` | bot.py:82-83 | the artist cut out and the ends stripped: never longer than the title, only its characters, no whitespace at either end |
| `Tracks.DropDashes` | bot.py:85-86 | every `-` removed and the ends stripped: never longer, only its characters, no `-`, no whitespace at either end |
| `Tracks.CleanTitle` | bot.py:81-86 | the title stays unchanged unless title and artist are both non-empty; then it is the title with the artist cut out and stripped, and if that has a dash at either end, the same with every dash removed and stripped again; it never grows, gains no character, has no whitespace at either end once cleaned, and holds no `-` once the dash branch fires |
| `Tracks.ArtistDashSong` | bot.py:81-86 | the title "<artist> - <song>" (artist not recurring, song without dashes or outer spaces) is cleaned to exactly the song |
| `Tracks.MinimizeInfo` | bot.py:74-93 | `minimize_info` copies url and `duration_string` (absent means `""`), takes the artist by its fallback chain, and takes the title by its fallback chain and cleans it with `CleanTitle` against that artist: unchanged unless title and artist are both non-empty, never longer, built from the title's characters, and dash-free once the dash branch fires |
| `Tracks.MinimizeArtistDashSong` | bot.py:74-93 | a video titled "<artist> - <song>" by that artist is queued with title `song` and artist `artist` |
| `Tracks.MinimizeAll` | bot.py:336-346 | one answer per playlist entry, in order; an answer is a track exactly when the lookup succeeded, and then it is `minimize_info` of that lookup |
| `Tracks.FileTitle` | bot.py:386 | the derived title is the part of the last path component before its first `.`: a prefix of that component, followed in it by a `.` when shorter; it has no `/` and no `.`, and a name without either is kept as it is |
| `Tracks.AfterLastPastSeparator` | bot.py:380-386 | the `temp_audio/` directory prefix does not affect the last path component |
| `Tracks.FileInfoIs` | bot.py:380-388 | the dictionary `play-file` builds: url `temp_audio/<name>`, title the upload's name up to its first `.`, uploader the user, nothing else (the duration key is not read) |
| `Tracks.FileTrack` | bot.py:380-389 | `play-file` enqueues url `temp_audio/<name>`, the uploader as artist, an empty duration label, and as title the name up to its first `.`, cleaned of the uploader's name; any file name, dotted or not |
| `Tracks.PlainFileTrack` | bot.py:386 | for a name without `/`, the title is the cleaned part before the first `.` |
| `Tracks.SongFileTitle` | bot.py:386 | an upload named `song.mp3` gets the title `song`, cleaned of the uploader's name |
| `QueueView.Entry` | bot.py:99-103 | each entry is a prefix of `"title - artist"`, of length `max_width-3` or the whole string when shorter |
| `QueueView.Layout` | bot.py:105-112 | the playing entry is the last history entry; earlier entries are shown most recent first, at most `max_len//3` of them; the first `2*max_len//3` queue entries are shown in order; shown plus hidden counts equal the list sizes |
| `QueueView.AppendBullets` | bot.py:117-122 | the `for element in ...: message += "- element\n"` loop appends one bullet line per element, in order |
| `QueueView.RenderListing` | bot.py:114-125 | the message is the hidden-count line, the history bullets, the `▶` line, the queue bullets and the hidden-count line; each line is left out where the source's guard is false |
| `QueueView.FormatQueue` | bot.py:96-127 | with both lists empty the result is exactly "Die Wiedergabeliste ist leer"; otherwise it is the rendering of `Layout` |
| `QueueView.DefaultWindow` | bot.py:96 | with the defaults 30/35, at most 10 earlier and 20 pending entries are shown, each at most 32 characters |
| `Playback.EnsureHistory` | bot.py:233-234 | afterwards the history key exists; queue, loop flag and a valid history are unchanged |
| `Playback.Record` | bot.py:238-240 | `append` then eviction: the track is the last entry; below the bound the history grows by it, at the bound the oldest entry goes; a history under the bound stays under it |
| `Playback.Advance` | bot.py:233-242 | keeps the history bound and the key invariant; the loop flag is unchanged |
| `Playback.Outcome` | bot.py:242-261 | idle exactly when nothing was picked; IndexError exactly for the loop replay with an empty history; AttributeError exactly when the picked track has no url; playback starts exactly when the picked track has a url and a client exists or joining succeeds; otherwise the picked track is reported as not played |
| `Playback.AfterPlay` | bot.py:261 | after `voice_client.play` the client exists, is connected, plays and is not paused; any other outcome leaves the client as it was |
| `Playback.PushBack` | bot.py:313 | `queue.append`: the queue gains the track at the back; the history and the invariant are kept |
| `Playback.PushFront` | bot.py:368 | `queue.insert(0, ...)`: the queue gains the track at the front; the history and the invariant are kept |
| `Playback.MoveBack` | bot.py:158 | `queue.insert(0, prev_songs.pop(-1))`: the last history entry moves to the queue front, the history loses exactly it, loop flag and key are unchanged |
| `Playback.StepBack` | bot.py:155-160 | no change with fewer than two history entries; tracks move between history and queue: history followed by queue is the same sequence, so none is lost and the order is kept; the invariant is kept |
| `Playback.Clear` | bot.py:196-198 | queue and history become empty; the loop flag and the key are unchanged |
| `Playback.SetLoop` | bot.py:445-454 | sets the flag and changes nothing else |
| `Playback.ToggleLoop` | bot.py:143-149 | flips the flag and changes nothing else |
| `Playback.AddTrack` | bot.py:310-318 | while the sink plays, only the enqueue happens; otherwise `play_next_in_queue` runs and reports something other than idle; the invariant is kept |
| `Playback.Ingest` | bot.py:334-350 | over the answers already reduced by `minimize_info`: keeps the invariant and the loop flag; warns at most once per failed entry, and exactly once per failed entry when it runs to the end; aborts only when some entry resolved, and never while the sink plays, which then stays as it was. The stop at the first IndexError or AttributeError is stated by `Playback.IngestPlays` |
| `Playback.IngestSkipsFailure` | bot.py:339-343 | a failed entry adds one warning and changes nothing else |
| `Playback.IngestAppends` | bot.py:344-347 | while the sink plays, a resolved entry is appended and the loop goes on |
| `Playback.IngestPlays` | bot.py:344-348 | with the sink idle, a resolved entry is appended and `play_next_in_queue` runs; if that raises IndexError or AttributeError, the command ends right there with the state it reached, otherwise the loop goes on with the sink that `play` left |
| `Playback.Skip` | bot.py:397-403 | nothing happens unless the sink is playing |
| `Playback.Previous` | bot.py:406-417 | without playback only the step back happens; the invariant is kept |
| `PlaybackLaws.AdvanceDequeues` | bot.py:236-240 | with loop off, exactly the queue front is removed and appended to the history; the history drops its oldest entry exactly when it reaches 500, so it never exceeds 499 |
| `PlaybackLaws.AdvanceKeepsTimeline` | bot.py:237-238 | below the bound, history followed by queue is the same sequence after a non-loop advance |
| `PlaybackLaws.EmptyQueueIdle` | bot.py:235 | with an empty queue Advance does nothing, loop or not |
| `PlaybackLaws.LoopReplays` | bot.py:241-242 | with loop on, Advance replays the last history entry and leaves queue and history unchanged |
| `PlaybackLaws.LoopWithoutHistory` | bot.py:241-242 | loop on and an empty history: the replay fails and the queue keeps its tracks |
| `PlaybackLaws.LoopIsStable` | bot.py:233-242 | once the history key exists, any number of completions in loop mode leaves the entry unchanged |
| `PlaybackLaws.BackIsFifo` | bot.py:313 | successive back-enqueues put the tracks behind the queue in arrival order |
| `PlaybackLaws.FrontIsLifo` | bot.py:368 | successive front-enqueues put the tracks ahead of the queue, the latest first |
| `PlaybackLaws.StepBackOrder` | bot.py:158-160 | `prev` while playing moves the last two history entries to the queue front in their original order; while not playing it moves only the last one |
| `PlaybackLaws.PrevThenSkipRestores` | bot.py:414-417 | step back while playing, then two completions: queue and history are as they were (loop off) |
| `PlaybackLaws.PrevSkipRoundTrip` | bot.py:397-417 | with loop off, `prev` hands the previous track to playback, and the next `skip` hands over the track that was playing before, with queue and history restored |
| `PlaybackLaws.PrevUnderLoop` | bot.py:414-417 | with loop on, `prev` while playing moves the last two history entries to the queue front; the completion then replays the entry before them, or raises IndexError when the history is left empty |
| `PlaybackLaws.SkipUnderLoop` | bot.py:399-400 | with loop on and a non-empty queue, `skip` hands the playing track to playback again and changes nothing |
| `PlaybackLaws.SkipAdvances` | bot.py:236-240 | with loop off, `skip` hands the queue front to playback, removes it from the queue and makes it the last history entry; with an empty queue nothing plays and queue and history stay as they are |
| `PlaybackLaws.ClearThenAdvance` | bot.py:428-435 | the completion fired by `voice_client.stop()` after the clear finds nothing to play |
| `PlaybackLaws.HistoryKeepsLatest` | bot.py:239-240 | tracks played one after another leave exactly the last 499 plays in the history, evicted oldest first |
| `PlaybackLaws.LastNAppend` | bot.py:239-240 | evicting before an append does not change the last entries kept after it |
| `PlaybackLaws.IngestWhilePlaying` | bot.py:334-347 | while the sink plays, `play-album` appends the resolved tracks in playlist order and warns once per failure |
| `PlaybackLaws.IngestOne` | bot.py:233-247 | with loop off, room in the history and urls on every queued track, one resolved entry on an idle sink raises nothing and adds the track at the end of history followed by queue |
| `PlaybackLaws.IngestKeepsOrder` | bot.py:334-350 | with loop off, room in the history and urls on every queued and resolved track, `play-album` never aborts; every resolved track ends up, in order, behind what was there (played ones at the end of the history, the rest in the queue) |
| `PlaybackLaws.ThreeTrackTrace` | bot.py:299-417 | trace A, B, C: A is handed to playback; B and C queue; A's end hands over B; skip hands over C; two `prev`s hand over B, then A, leaving B, C queued |
| `GuildQueues.GuildQueue.constructor` | bot.py:311 | a new entry has only an empty queue |
| `GuildQueues.GuildQueue.Advance` | bot.py:233-261 | the in-place pops and appends give `Playback.Advance`'s state; the result says whether `voice_client.play` is reached |
| `GuildQueues.GuildQueue.PushBack` | bot.py:313 | in place, as `Playback.PushBack` |
| `GuildQueues.GuildQueue.PushFront` | bot.py:368 | in place, as `Playback.PushFront` |
| `GuildQueues.GuildQueue.Add` | bot.py:313-318 | enqueue, then Advance when the sink is not playing, as `Playback.AddTrack` |
| `GuildQueues.GuildQueue.Ingest` | bot.py:334-350 | the loop, which reduces each answer with `minimize_info` as it goes, gives `Playback.Ingest`'s state, warning count and abort for the reduced answers |
| `GuildQueues.GuildQueue.Skip` | bot.py:397-403 | as `Playback.Skip` |
| `GuildQueues.GuildQueue.MoveBack` | bot.py:158 | `queue.insert(0, prev_songs.pop(-1))` in place |
| `GuildQueues.GuildQueue.Previous` | bot.py:155-161 | one or two in-place moves, then the completion, as `Playback.Previous` |
| `GuildQueues.GuildQueue.Clear` | bot.py:196-198 | clears in place; reports whether the history key existed |
| `GuildQueues.GuildQueue.SetLoop` | bot.py:447 | sets the flag in place |
| `GuildQueues.GuildQueue.ToggleLoop` | bot.py:143-149 | flips the flag in place and returns the new value |
| `Registries.Registry.constructor` | bot.py:33 | the dictionary starts empty |
| `Registries.Registry.GetOrCreate` | bot.py:310-311 | creates a fresh entry only for an absent guild; an existing entry is kept, the same object |
| `Registries.Registry.Enqueue` | bot.py:310-318 | create the entry if absent, then enqueue and start playback as `Playback.AddTrack`; only this guild's entry changes |
| `Registries.Registry.Play` | bot.py:301-318 | a failed resolution changes nothing; otherwise only this guild's entry changes, as `Playback.AddTrack` at the back |
| `Registries.Registry.PlayNext` | bot.py:357-373 | the same at the queue front |
| `Registries.Registry.PlayFile` | bot.py:378-393 | enqueues the upload's track at the back and changes only this guild's entry |
| `Registries.Registry.PlayAlbum` | bot.py:323-352 | no playlist: no change; otherwise only this guild's entry changes, as `Playback.Ingest` |
| `Registries.Registry.Finished` | bot.py:230-261 | the completion callback advances this guild's entry only and reports what `play_next_in_queue` did; an absent entry (KeyError) changes nothing |
| `Registries.Registry.Skip` | bot.py:396-403 | nothing when the sink is not playing; otherwise this guild's entry advances, as `Playback.Skip`; without an entry the callback fails and nothing changes |
| `Registries.Registry.Prev` | bot.py:406-421 | no client, a missing key or fewer than two history entries change nothing; otherwise only this guild's entry changes, as `Playback.Previous` |
| `Registries.Registry.Leave` | bot.py:425-442 | an existing entry loses queue and history (loop kept), even on the "Nichts zu stoppen" path; KeyError when the history key is absent; the stop happens only when a client exists and `is_connected()` holds, otherwise the answer is "Nichts zu stoppen" |
| `Registries.Registry.LoopButton` | bot.py:137-149 | only with a playing or paused client and an entry; flips this guild's flag |
| `Registries.Registry.SetLoop` | bot.py:445-454 | sets this guild's flag; KeyError without an entry |
| `Registries.Registry.LoopStatus` | bot.py:457-460 | reports the flag, absent as off; KeyError without an entry |
| `Registries.Registry.ShowQueue` | bot.py:463-473 | no entry: "no list"; no history key with a non-empty queue: TypeError; otherwise the `format_queue` text with the defaults |

## Left out

- Discord I/O is not modelled: interaction responses and follow-ups, pinning and editing the now-playing message, the `MusicControlsView` labels and emoji, `join`, `MyClient` and the command tree. These are platform calls; the handlers return a `Reply` in their place.
- The `"now_playing_message"` key is not modelled. It only feeds the presentation.
- Registries.Registry.Leave: the KeyError or AttributeError that `stop`/`leave` can raise when they read `"now_playing_message"` is not modelled. It comes after the queue change, the disconnect and the reply (bot.py:204-205, 436-437). What it skips is the unpin, the edit and the `pop` of that key, which concern only the now-playing message.
- `pause`/`resume` are not modelled. They change no queue state.
- `get_info` and `get_playlist_info` are not modelled: they are yt-dlp calls behind a 24-hour `ttl_cache`. Their answers are parameters, and so is the playlist label they format.
- The Opus loading, the `FFmpegPCMAudio` construction and `voice_client.play/connect/disconnect` are not modelled; they are audio and transport I/O. The `temp_audio/` prefix test only picks the FFmpeg options, so it is not modelled; the AttributeError that test raises for a url of `None` is.
- Playback.Outcome: a client that exists but is not connected is taken to play, because `play_next_in_queue` checks only that a client exists (bot.py:250). The ClientException that discord.py's `play` raises for such a client is not modelled.
- Playback.AfterPlay: a started track is taken to leave the client connected and playing for the rest of the call, so a track ending while `play-album` is still resolving entries is not modelled.
- Playback.Outcome: "no join hint" and "connect() raised" are merged into one `canJoin` input, because both end the call the same way.
- The scheduling of the `after` callback as an asyncio task is not modelled. The model runs the callback right where the sink is stopped, so no other command for the guild runs in between.
- The `play-album` timing is not modelled: the `time.time()` measurements and the jittered `asyncio.sleep`. Track ends during the ingest are also left out: the sink only changes through the ingest's own `play_next_in_queue`.
- `.env`/token handling, creating the `temp_audio` directory and saving the upload are not modelled; they are process set-up and file I/O.
- Metadata values that are not strings are not modelled: `Info` keys are optional strings, and a key holding `None` is treated as absent.

=== FILE: guild_queue.dfy ===
/**
 * One guild's entry of `music_queues`, updated in place as `bot.py` does:
 * `queue.pop(0)`, `prev_songs.append`, `prev_songs.pop(0)`/`pop(-1)`,
 * `queue.insert(0, ...)`, `.clear()` and the `"Loop"` assignment. Every
 * method is proved against the transition of the same name in Playback.
 */
module GuildQueues {
  import opened Options
  import opened Tracks
  import P = Playback

  class GuildQueue {
    var queue: seq<Track>
    var prevSongs: seq<Track>
    var hasPrevSongs: bool
    var loop: bool

    /** The entry as a value. */
    function State(): P.GuildState
      reads this
    {
      P.GuildState(queue, prevSongs, hasPrevSongs, loop)
    }

    ghost predicate Valid()
      reads this
    {
      P.Valid(State())
    }

    /** `{"queue": [], "now_playing_message": None}`. */
    constructor ()
      ensures Valid() && State() == P.NewEntry
    {
      queue, prevSongs, hasPrevSongs, loop := [], [], false, false;
    }

    /** The state part of `play_next_in_queue`, then whether `voice_client.play` is reached. */
    method Advance(sink: P.Sink) returns (played: P.Played)
      requires Valid()
      modifies this
      ensures Valid()
      ensures State() == P.Advance(old(State())).state
      ensures played == P.Outcome(P.Advance(old(State())).pick, sink)
    {
      if !(hasPrevSongs && |prevSongs| > 0) {
        prevSongs, hasPrevSongs := [], true;
      }
      var pick: P.Pick;
      if |queue| == 0 {
        pick := P.NothingQueued;
      } else if !loop {
        var current := queue[0];
        queue := queue[1..];
        prevSongs := prevSongs + [current];
        if |prevSongs| >= P.MAX_PREV_SONGS_SIZE {
          prevSongs := prevSongs[1..];
        }
        pick := P.Dequeued(current);
      } else if |prevSongs| == 0 {
        pick := P.HistoryEmpty;
      } else {
        pick := P.Replayed(prevSongs[|prevSongs| - 1]);
      }
      played := P.Outcome(pick, sink);
    }

    /** `queue.append(t)`. */
    method PushBack(t: Track)
      requires Valid()
      modifies this
      ensures Valid() && State() == P.PushBack(old(State()), t)
    {
      queue := queue + [t];
    }

    /** `queue.insert(0, t)`. */
    method PushFront(t: Track)
      requires Valid()
      modifies this
      ensures Valid() && State() == P.PushFront(old(State()), t)
    {
      queue := [t] + queue;
    }

    /**
     * `play`, `play-next`, `play-file`: enqueue, then `play_next_in_queue`
     * unless `voice_client` exists and `is_playing()`.
     */
    method Add(t: Track, atFront: bool, sink: P.Sink) returns (played: Option<P.Played>)
      requires Valid()
      modifies this
      ensures Valid()
      ensures State() == P.AddTrack(old(State()), t, atFront, sink).state
      ensures played == P.AddTrack(old(State()), t, atFront, sink).played
    {
      if atFront {
        PushFront(t);
      } else {
        PushBack(t);
      }
      played := None;
      if !(sink.present && sink.playing) {
        var p := Advance(sink);
        played := Some(p);
      }
    }

    /** The `play-album` loop over the resolver's answers, one entry at a time. */
    method Ingest(infos: seq<Option<Info>>, sink: P.Sink) returns (warnings: nat, aborted: bool)
      requires Valid()
      modifies this
      ensures Valid()
      ensures State() == P.Ingest(old(State()), MinimizeAll(infos), sink).state
      ensures warnings == P.Ingest(old(State()), MinimizeAll(infos), sink).warnings
      ensures aborted == P.Ingest(old(State()), MinimizeAll(infos), sink).aborted
    {
      ghost var songs := MinimizeAll(infos);
      ghost var all := P.Ingest(State(), songs, sink);
      var voice := sink;
      warnings, aborted := 0, false;
      var i := 0;
      while i < |infos|
        invariant 0 <= i <= |infos|
        invariant Valid()
        invariant var rest := P.Ingest(State(), songs[i..], voice);
          && rest.state == all.state && rest.aborted == all.aborted
          && warnings + rest.warnings == all.warnings
      {
        ghost var here := songs[i..];
        assert here[1..] == songs[i + 1..] && here[0] == songs[i];
        var songInfo := infos[i];
        if songInfo.None? {
          P.IngestSkipsFailure(State(), here, voice);
          warnings := warnings + 1;
        } else {
          ghost var before := State();
          PushBack(MinimizeInfo(songInfo.value));
          if !(voice.present && voice.playing) {
            P.IngestPlays(before, here, voice);
            var p := Advance(voice);
            if P.Raises(p) {
              aborted := true;
              return;
            }
            voice := P.AfterPlay(voice, p);
          } else {
            P.IngestAppends(before, here, voice);
          }
        }
        i := i + 1;
      }
    }

    /** `skip`: `voice_client.stop()` when playing; its completion callback advances. */
    method Skip(sink: P.Sink) returns (played: Option<P.Played>)
      requires Valid()
      modifies this
      ensures Valid()
      ensures State() == P.Skip(old(State()), sink).state
      ensures played == P.Skip(old(State()), sink).played
    {
      played := None;
      if sink.present && sink.playing {
        var p := Advance(sink);
        played := Some(p);
      }
    }

    /** `queue.insert(0, prev_songs.pop(-1))`. */
    method MoveBack()
      requires Valid() && |prevSongs| > 0
      modifies this
      ensures Valid() && State() == P.MoveBack(old(State()))
    {
      var last := prevSongs[|prevSongs| - 1];
      prevSongs := prevSongs[..|prevSongs| - 1];
      queue := [last] + queue;
    }

    /**
     * `prev` with a voice client: nothing with fewer than two history
     * entries; else move one entry back, and when playing a second one and
     * stop the sink, whose completion callback advances.
     */
    method Previous(sink: P.Sink) returns (played: Option<P.Played>)
      requires Valid() && sink.present
      modifies this
      ensures Valid()
      ensures State() == P.Previous(old(State()), sink).state
      ensures played == P.Previous(old(State()), sink).played
    {
      played := None;
      if |prevSongs| < 2 {
        return;
      }
      MoveBack();
      if sink.playing {
        MoveBack();
        var p := Advance(sink);
        played := Some(p);
      }
    }

    /**
     * `queue.clear()` then `prev_songs.clear()`; `ok` is false when the
     * history key is absent, where `bot.py` raises KeyError after the
     * queue is already empty.
     */
    method Clear() returns (ok: bool)
      requires Valid()
      modifies this
      ensures Valid() && State() == P.Clear(old(State()))
      ensures ok == old(hasPrevSongs)
    {
      queue := [];
      if !hasPrevSongs {
        return false;
      }
      prevSongs := [];
      ok := true;
    }

    /** `"Loop" = enabled`. */
    method SetLoop(enabled: bool)
      requires Valid()
      modifies this
      ensures Valid() && State() == P.SetLoop(old(State()), enabled)
    {
      loop := enabled;
    }

    /** The loop button's flip; returns the new setting. */
    method ToggleLoop() returns (enabled: bool)
      requires Valid()
      modifies this
      ensures Valid() && State() == P.ToggleLoop(old(State()))
      ensures enabled == loop
    {
      loop := !loop;
      enabled := loop;
    }
  }
}

=== FILE: options.dfy ===
/** The optional value used for dictionary keys that may be absent. */
module Options {

  datatype Option<+T> = None | Some(value: T) {

    /** The wrapped value, or `default` when absent. */
    function GetOr(default: T): T {
      match this
      case Some(v) => v
      case None => default
    }
  }
}

=== FILE: playback.dfy ===
/**
 * The per-guild playback state of `music_queues` as a value, and every
 * change the bot makes to it as a function. The playing track is the LAST
 * entry of the history `prevSongs`; the "current_song" key that
 * `play_next_in_queue` tests is never written, so it plays no part.
 */
module Playback {
  import opened Options
  import opened Text
  import opened Tracks

  /** `MAX_PREV_SONGS_SIZE`. */
  const MAX_PREV_SONGS_SIZE: nat := 500

  /**
   * One guild's entry: the pending `queue` (front first), the history
   * `prevSongs` (most recent last) together with whether its key exists yet,
   * and the `"Loop"` flag (an absent key reads as off).
   */
  datatype GuildState = GuildState(queue: seq<Track>, prevSongs: seq<Track>, hasPrevSongs: bool, loop: bool)

  /** The entry that `play`, `play-next`, `play-file` and `play-album` create: only a queue. */
  const NewEntry: GuildState := GuildState([], [], false, false)

  /**
   * What every change keeps: the history stays below the size bound (it
   * never holds more than 499 tracks), and it is empty while its key is absent.
   */
  predicate Valid(s: GuildState) {
    |s.prevSongs| < MAX_PREV_SONGS_SIZE && (!s.hasPrevSongs ==> s.prevSongs == [])
  }

  /** The voice client as the handlers see it. */
  datatype Sink = Sink(
    present: bool,      // guild.voice_client exists
    isConnected: bool,  // voice_client.is_connected()
    playing: bool,      // voice_client.is_playing()
    paused: bool,       // voice_client.is_paused()
    canJoin: bool)      // the invoking user is in a voice channel and connect() succeeds

  /** What the state part of `play_next_in_queue` selected. */
  datatype Pick =
    | NothingQueued       // empty queue: nothing happens
    | Dequeued(t: Track)  // loop off: the queue front, now the last history entry
    | Replayed(t: Track)  // loop on: the last history entry again
    | HistoryEmpty        // loop on but no history: prev_songs[-1] raises IndexError

  datatype Advanced = Advanced(state: GuildState, pick: Pick)

  /** How `play_next_in_queue` ends, once the pick meets the voice connection. */
  datatype Played =
    | Idle                  // nothing to play
    | Started(t: Track)     // the track is handed to voice_client.play
    | NotConnected(t: Track) // no client and no way to connect: returns, the track stays consumed
    | ReplayFailed          // the IndexError of prev_songs[-1]
    | NoUrl(t: Track)       // the picked track has no url: `url.startswith` raises AttributeError, nothing plays

  /** The outcomes in which `play_next_in_queue` raises instead of returning. */
  predicate Raises(p: Played) {
    p.ReplayFailed? || p.NoUrl?
  }

  /** The key absent or holding an empty list reads as falsy and is set to `[]`. */
  function EnsureHistory(s: GuildState): (r: GuildState)
    ensures r.hasPrevSongs && r.queue == s.queue && r.loop == s.loop
    ensures Valid(s) ==> r.prevSongs == s.prevSongs
  {
    if s.hasPrevSongs && |s.prevSongs| > 0 then s else s.(prevSongs := [], hasPrevSongs := true)
  }

  /** `prev_songs.append(t)` followed by the eviction of the oldest entry at the bound. */
  function Record(history: seq<Track>, t: Track): (r: seq<Track>)
    ensures |r| > 0 && r[|r| - 1] == t
    ensures |history| + 1 < MAX_PREV_SONGS_SIZE ==> r == history + [t]
    ensures |history| + 1 >= MAX_PREV_SONGS_SIZE ==> r == history[1..] + [t]
    ensures |history| < MAX_PREV_SONGS_SIZE ==> |r| < MAX_PREV_SONGS_SIZE
  {
    var h := history + [t];
    if |h| >= MAX_PREV_SONGS_SIZE then h[1..] else h
  }

  /** The state part of `play_next_in_queue`. */
  function Advance(s: GuildState): (r: Advanced)
    ensures Valid(s) ==> Valid(r.state)
    ensures r.state.loop == s.loop && r.state.hasPrevSongs
  {
    var s := EnsureHistory(s);
    if |s.queue| == 0 then Advanced(s, NothingQueued)
    else if !s.loop then
      Advanced(s.(queue := s.queue[1..], prevSongs := Record(s.prevSongs, s.queue[0])), Dequeued(s.queue[0]))
    else if |s.prevSongs| == 0 then Advanced(s, HistoryEmpty)
    else Advanced(s, Replayed(s.prevSongs[|s.prevSongs| - 1]))
  }

  /**
   * How `play_next_in_queue` ends once a track is picked: its url is read
   * first (`startswith`), then a client is looked up or joined, and only
   * then is `voice_client.play` reached.
   */
  function Outcome(p: Pick, sink: Sink): (r: Played)
    ensures r.Idle? <==> p.NothingQueued?
    ensures r.ReplayFailed? <==> p.HistoryEmpty?
    ensures r.NoUrl? <==> (p.Dequeued? || p.Replayed?) && p.t.url.None?
    ensures r.Started? <==> (p.Dequeued? || p.Replayed?) && p.t.url.Some? && (sink.present || sink.canJoin)
    ensures r.Started? || r.NotConnected? || r.NoUrl? ==> (p.Dequeued? || p.Replayed?) && r.t == p.t
  {
    match p
    case NothingQueued => Idle
    case HistoryEmpty => ReplayFailed
    case Dequeued(t) => HandOver(t, sink)
    case Replayed(t) => HandOver(t, sink)
  }

  /** The url check, then the connection check, for the picked track. */
  function HandOver(t: Track, sink: Sink): Played {
    if t.url.None? then NoUrl(t)
    else if sink.present || sink.canJoin then Started(t)
    else NotConnected(t)
  }

  /**
   * The voice client after `play_next_in_queue` ran: `voice_client.play`
   * leaves a client that exists, is connected and plays; any other outcome
   * leaves it as it was.
   */
  function AfterPlay(sink: Sink, p: Played): (r: Sink)
    ensures p.Started? ==> r.present && r.isConnected && r.playing && !r.paused && r.canJoin == sink.canJoin
    ensures !p.Started? ==> r == sink
  {
    if p.Started? then sink.(present := true, isConnected := true, playing := true, paused := false) else sink
  }

  /** `queue.append(t)`: `play`, `play-file` and each entry of `play-album`. */
  function PushBack(s: GuildState, t: Track): (r: GuildState)
    ensures Valid(s) ==> Valid(r)
    ensures r.queue == s.queue + [t] && r.prevSongs == s.prevSongs
    ensures r.hasPrevSongs == s.hasPrevSongs && r.loop == s.loop
  {
    s.(queue := s.queue + [t])
  }

  /** `queue.insert(0, t)`: `play-next`. */
  function PushFront(s: GuildState, t: Track): (r: GuildState)
    ensures Valid(s) ==> Valid(r)
    ensures r.queue == [t] + s.queue && r.prevSongs == s.prevSongs
    ensures r.hasPrevSongs == s.hasPrevSongs && r.loop == s.loop
  {
    s.(queue := [t] + s.queue)
  }

  /** `queue.insert(0, prev_songs.pop(-1))`. */
  function MoveBack(s: GuildState): (r: GuildState)
    requires |s.prevSongs| > 0
    ensures r.queue == [s.prevSongs[|s.prevSongs| - 1]] + s.queue
    ensures r.prevSongs == s.prevSongs[..|s.prevSongs| - 1]
    ensures r.prevSongs + [s.prevSongs[|s.prevSongs| - 1]] == s.prevSongs
    ensures r.loop == s.loop && r.hasPrevSongs == s.hasPrevSongs
  {
    var n := |s.prevSongs|;
    s.(queue := [s.prevSongs[n - 1]] + s.queue, prevSongs := s.prevSongs[..n - 1])
  }

  /**
   * The queue change of `prev`: nothing with fewer than two history entries;
   * otherwise the playing track goes back to the queue front, and when the
   * sink is playing the one before it goes in front of it.
   */
  function StepBack(s: GuildState, playing: bool): (r: GuildState)
    ensures Valid(s) ==> Valid(r)
    ensures |s.prevSongs| < 2 ==> r == s
    ensures |r.prevSongs| + |r.queue| == |s.prevSongs| + |s.queue|
    ensures r.prevSongs + r.queue == s.prevSongs + s.queue
    ensures r.loop == s.loop && r.hasPrevSongs == s.hasPrevSongs
  {
    if |s.prevSongs| < 2 then s
    else if playing then MoveBack(MoveBack(s))
    else MoveBack(s)
  }

  /** `queue.clear()` and `prev_songs.clear()` of `stop`/`leave`; the loop flag stays. */
  function Clear(s: GuildState): (r: GuildState)
    ensures Valid(s) ==> Valid(r)
    ensures r.queue == [] && r.prevSongs == [] && r.loop == s.loop && r.hasPrevSongs == s.hasPrevSongs
  {
    s.(queue := [], prevSongs := [])
  }

  /** `"Loop" = b`: `loop-on` and `loop-off`. */
  function SetLoop(s: GuildState, b: bool): (r: GuildState)
    ensures r.loop == b && r.queue == s.queue && r.prevSongs == s.prevSongs && r.hasPrevSongs == s.hasPrevSongs
  {
    s.(loop := b)
  }

  /** The loop button: on unless it `is True`, then off. */
  function ToggleLoop(s: GuildState): (r: GuildState)
    ensures r.loop != s.loop && r.queue == s.queue && r.prevSongs == s.prevSongs && r.hasPrevSongs == s.hasPrevSongs
  {
    s.(loop := !s.loop)
  }

  // ---- The handlers' effect on one entry ----

  datatype Added = Added(state: GuildState, played: Option<Played>)

  /**
   * `play`, `play-next` and `play-file` once the track is known: enqueue at
   * the back (or the front), then run `play_next_in_queue` unless the sink
   * is playing.
   */
  function AddTrack(s: GuildState, t: Track, atFront: bool, sink: Sink): (r: Added)
    ensures Valid(s) ==> Valid(r.state)
    ensures sink.present && sink.playing ==> r.played == None
    ensures sink.present && sink.playing ==> r.state == if atFront then PushFront(s, t) else PushBack(s, t)
    ensures !(sink.present && sink.playing) ==> r.played.Some? && r.played.value != Idle
  {
    var s1 := if atFront then PushFront(s, t) else PushBack(s, t);
    if sink.present && sink.playing then Added(s1, None)
    else
      var a := Advance(s1);
      Added(a.state, Some(Outcome(a.pick, sink)))
  }

  datatype Ingested = Ingested(state: GuildState, sink: Sink, warnings: nat, aborted: bool)

  /** The tracks among the resolver's answers, in order. */
  function Resolved(songs: seq<Option<Track>>): (ts: seq<Track>)
    ensures |ts| <= |songs|
  {
    if |songs| == 0 then []
    else if songs[0].None? then Resolved(songs[1..])
    else [songs[0].value] + Resolved(songs[1..])
  }

  /** How many of the resolver's answers are failures. */
  function Failures(songs: seq<Option<Track>>): (n: nat)
    ensures n <= |songs|
  {
    if |songs| == 0 then 0 else (if songs[0].None? then 1 else 0) + Failures(songs[1..])
  }

  /**
   * The `play-album` loop over the resolver's answers for the playlist
   * entries: a failure sends a warning and is skipped; a track is appended
   * and `play_next_in_queue` runs whenever the sink is not playing. An
   * IndexError or AttributeError raised there ends the command.
   */
  function Ingest(s: GuildState, songs: seq<Option<Track>>, sink: Sink): (r: Ingested)
    ensures Valid(s) ==> Valid(r.state)
    ensures r.warnings <= Failures(songs)
    ensures !r.aborted ==> r.warnings == Failures(songs)
    ensures r.aborted ==> Resolved(songs) != []
    ensures sink.present && sink.playing ==> !r.aborted && r.sink == sink
    ensures r.state.loop == s.loop
    decreases |songs|
  {
    if |songs| == 0 then Ingested(s, sink, 0, false)
    else if songs[0].None? then
      var r := Ingest(s, songs[1..], sink);
      r.(warnings := r.warnings + 1)
    else
      var s1 := PushBack(s, songs[0].value);
      if sink.present && sink.playing then Ingest(s1, songs[1..], sink)
      else
        var a := Advance(s1);
        var p := Outcome(a.pick, sink);
        if Raises(p) then Ingested(a.state, sink, 0, true)
        else Ingest(a.state, songs[1..], AfterPlay(sink, p))
  }

  /** A playlist entry that did not resolve adds one warning and nothing else. */
  lemma IngestSkipsFailure(s: GuildState, songs: seq<Option<Track>>, sink: Sink)
    requires |songs| > 0 && songs[0].None?
    ensures Ingest(s, songs, sink) == Ingest(s, songs[1..], sink).(warnings := Ingest(s, songs[1..], sink).warnings + 1)
    ensures Resolved(songs) == Resolved(songs[1..]) && Failures(songs) == Failures(songs[1..]) + 1
  {
  }

  /** A resolved entry is appended; while the sink plays, nothing else happens. */
  lemma IngestAppends(s: GuildState, songs: seq<Option<Track>>, sink: Sink)
    requires |songs| > 0 && songs[0].Some? && sink.present && sink.playing
    ensures Ingest(s, songs, sink) == Ingest(PushBack(s, songs[0].value), songs[1..], sink)
    ensures Resolved(songs) == [songs[0].value] + Resolved(songs[1..])
    ensures Failures(songs) == Failures(songs[1..])
  {
  }

  /** A resolved entry is appended and, with the sink idle, `play_next_in_queue` runs. */
  lemma IngestPlays(s: GuildState, songs: seq<Option<Track>>, sink: Sink)
    requires |songs| > 0 && songs[0].Some? && !(sink.present && sink.playing)
    ensures var a := Advance(PushBack(s, songs[0].value));
      var p := Outcome(a.pick, sink);
      Ingest(s, songs, sink) == if Raises(p) then Ingested(a.state, sink, 0, true)
        else Ingest(a.state, songs[1..], AfterPlay(sink, p))
    ensures Resolved(songs) == [songs[0].value] + Resolved(songs[1..])
    ensures Failures(songs) == Failures(songs[1..])
  {
  }

  /** `skip`: stopping a playing sink fires the completion callback, which advances. */
  function Skip(s: GuildState, sink: Sink): (r: Added)
    ensures Valid(s) ==> Valid(r.state)
    ensures !(sink.present && sink.playing) ==> r == Added(s, None)
  {
    if sink.present && sink.playing then
      var a := Advance(s);
      Added(a.state, Some(Outcome(a.pick, sink)))
    else Added(s, None)
  }

  /**
   * `prev` with a voice client and at least two history entries: step back,
   * and when playing stop the sink, whose callback advances.
   */
  function Previous(s: GuildState, sink: Sink): (r: Added)
    requires sink.present
    ensures Valid(s) ==> Valid(r.state)
    ensures !sink.playing ==> r == Added(StepBack(s, false), None)
  {
    var s1 := StepBack(s, sink.playing);
    if sink.playing && |s.prevSongs| >= 2 then
      var a := Advance(s1);
      Added(a.state, Some(Outcome(a.pick, sink)))
    else Added(s1, None)
  }
}

=== FILE: playback_laws.dfy ===
/**
 * What the playback transitions promise: how advancing moves tracks and
 * bounds the history, that loop mode leaves queue and history alone, the
 * order that enqueueing keeps, the prev/skip round trip, and what stop and
 * the album ingest do.
 */
module PlaybackLaws {
  import opened Options
  import opened Text
  import opened Tracks
  import opened Playback

  /** With loop off, advancing takes exactly the queue front and makes it the last history entry. */
  lemma AdvanceDequeues(s: GuildState)
    requires Valid(s) && !s.loop && |s.queue| > 0
    ensures Advance(s).pick == Dequeued(s.queue[0])
    ensures Advance(s).state.queue == s.queue[1..]
    ensures |s.prevSongs| + 1 < MAX_PREV_SONGS_SIZE ==> Advance(s).state.prevSongs == s.prevSongs + [s.queue[0]]
    ensures |s.prevSongs| + 1 == MAX_PREV_SONGS_SIZE ==> Advance(s).state.prevSongs == s.prevSongs[1..] + [s.queue[0]]
    ensures |Advance(s).state.prevSongs| <= MAX_PREV_SONGS_SIZE - 1
  {
    if |s.prevSongs| + 1 == MAX_PREV_SONGS_SIZE {
      assert (s.prevSongs + [s.queue[0]])[1..] == s.prevSongs[1..] + [s.queue[0]];
    }
  }

  /** Below the bound, advancing with loop off loses and reorders nothing: history followed by queue stays the same sequence. */
  lemma AdvanceKeepsTimeline(s: GuildState)
    requires Valid(s) && !s.loop && |s.prevSongs| + 1 < MAX_PREV_SONGS_SIZE
    ensures Advance(s).state.prevSongs + Advance(s).state.queue == s.prevSongs + s.queue
  {
    if |s.queue| > 0 {
      AdvanceDequeues(s);
      assert s.prevSongs + [s.queue[0]] + s.queue[1..] == s.prevSongs + s.queue by {
        assert [s.queue[0]] + s.queue[1..] == s.queue;
      }
    }
  }

  /** With an empty queue advancing does nothing, loop or not. */
  lemma EmptyQueueIdle(s: GuildState)
    requires Valid(s) && |s.queue| == 0
    ensures Advance(s) == Advanced(s.(hasPrevSongs := true), NothingQueued)
  {
  }

  /** With loop on and a track playing, advancing replays it and changes neither queue nor history. */
  lemma LoopReplays(s: GuildState)
    requires Valid(s) && s.loop && |s.queue| > 0 && |s.prevSongs| > 0
    ensures Advance(s) == Advanced(s, Replayed(s.prevSongs[|s.prevSongs| - 1]))
  {
  }

  /** With loop on and no history, `prev_songs[-1]` fails; the queue keeps the track. */
  lemma LoopWithoutHistory(s: GuildState)
    requires Valid(s) && s.loop && |s.queue| > 0 && |s.prevSongs| == 0
    ensures Advance(s) == Advanced(s.(hasPrevSongs := true), HistoryEmpty)
    ensures forall sink :: Outcome(Advance(s).pick, sink) == ReplayFailed
  {
  }

  /** `n` completions in a row, each re-entering `play_next_in_queue`. */
  function Completions(s: GuildState, n: nat): GuildState
    decreases n
  {
    if n == 0 then s else Completions(Advance(s).state, n - 1)
  }

  /** Loop mode never changes queue or history, however many completions arrive. */
  lemma {:induction false} LoopIsStable(s: GuildState, n: nat)
    requires Valid(s) && s.loop && s.hasPrevSongs
    ensures Completions(s, n) == s
    decreases n
  {
    if n > 0 {
      assert Advance(s).state == s;
      LoopIsStable(s, n - 1);
    }
  }

  /** `n` back-enqueues in a row (`play`, `play-file` while the sink is playing). */
  function PushAllBack(s: GuildState, ts: seq<Track>): GuildState
    decreases |ts|
  {
    if |ts| == 0 then s else PushAllBack(PushBack(s, ts[0]), ts[1..])
  }

  /** `n` front-enqueues in a row (`play-next` while the sink is playing). */
  function PushAllFront(s: GuildState, ts: seq<Track>): GuildState
    decreases |ts|
  {
    if |ts| == 0 then s else PushAllFront(PushFront(s, ts[0]), ts[1..])
  }

  /** Back-enqueues keep first-in first-out order behind what was queued; the history is untouched. */
  lemma {:induction false} BackIsFifo(s: GuildState, ts: seq<Track>)
    ensures PushAllBack(s, ts) == s.(queue := s.queue + ts)
    decreases |ts|
  {
    if |ts| > 0 {
      BackIsFifo(PushBack(s, ts[0]), ts[1..]);
      assert s.queue + [ts[0]] + ts[1..] == s.queue + ts;
    }
  }

  /** Front-enqueues stack up: the last one ends up first, all ahead of what was queued. */
  lemma {:induction false} FrontIsLifo(s: GuildState, ts: seq<Track>)
    ensures PushAllFront(s, ts) == s.(queue := Reverse(ts) + s.queue)
    decreases |ts|
  {
    if |ts| > 0 {
      FrontIsLifo(PushFront(s, ts[0]), ts[1..]);
      assert Reverse(ts[1..]) + [ts[0]] == Reverse(ts);
    }
  }

  /**
   * `prev` moves the playing track back to the queue front; when the sink is
   * playing the track before it goes in front of it, the two in their
   * original order. Nothing happens with fewer than two history entries.
   */
  lemma StepBackOrder(s: GuildState)
    requires |s.prevSongs| >= 2
    ensures var n := |s.prevSongs|;
      && StepBack(s, true).queue == s.prevSongs[n - 2..] + s.queue
      && StepBack(s, true).prevSongs == s.prevSongs[..n - 2]
      && StepBack(s, false).queue == [s.prevSongs[n - 1]] + s.queue
      && StepBack(s, false).prevSongs == s.prevSongs[..n - 1]
  {
    var n := |s.prevSongs|;
    assert s.prevSongs[..n - 1][..n - 2] == s.prevSongs[..n - 2];
    assert [s.prevSongs[n - 2]] + ([s.prevSongs[n - 1]] + s.queue) == s.prevSongs[n - 2..] + s.queue;
  }

  /** Stepping back while playing and advancing twice (the stop's completion, then a skip's) restores queue and history. */
  lemma PrevThenSkipRestores(s: GuildState)
    requires Valid(s) && !s.loop && |s.prevSongs| >= 2
    ensures Advance(Advance(StepBack(s, true)).state).state == s
  {
    var n := |s.prevSongs|;
    StepBackOrder(s);
    var s1 := StepBack(s, true);
    var s2 := Advance(s1).state;
    assert s2.queue == [s.prevSongs[n - 1]] + s.queue;
    assert s2.prevSongs == s.prevSongs[..n - 1] by {
      assert s.prevSongs[..n - 2] + [s.prevSongs[n - 2]] == s.prevSongs[..n - 1];
    }
    var s3 := Advance(s2).state;
    assert s3.prevSongs == s.prevSongs by {
      assert s.prevSongs[..n - 1] + [s.prevSongs[n - 1]] == s.prevSongs;
    }
  }

  /**
   * The same round trip through the handlers: `prev` while playing starts
   * the previous track, and the `skip` after it starts the track that was
   * playing before, with queue and history as they were.
   */
  lemma PrevSkipRoundTrip(s: GuildState, sink: Sink)
    requires Valid(s) && !s.loop && |s.prevSongs| >= 2 && sink.present && sink.playing
    ensures Previous(s, sink).played == Some(Handed(s.prevSongs[|s.prevSongs| - 2]))
    ensures Skip(Previous(s, sink).state, sink).played == Some(Handed(s.prevSongs[|s.prevSongs| - 1]))
    ensures Skip(Previous(s, sink).state, sink).state == s
  {
    StepBackOrder(s);
    PrevThenSkipRestores(s);
  }

  /** What `voice_client.play` is handed for a track on a present client: it starts, unless it has no url. */
  function Handed(t: Track): Played {
    if t.url.Some? then Started(t) else NoUrl(t)
  }

  /** With loop on, `skip` replays the playing track: loop wins over skip. */
  lemma SkipUnderLoop(s: GuildState, sink: Sink)
    requires Valid(s) && s.loop && |s.queue| > 0 && |s.prevSongs| > 0 && sink.present && sink.playing
    ensures Skip(s, sink) == Added(s, Some(Handed(s.prevSongs[|s.prevSongs| - 1])))
  {
  }

  /**
   * With loop off, `skip` of a playing sink starts the queue front, which
   * becomes the last history entry; with an empty queue the completion
   * finds nothing and queue and history stay as they are.
   */
  lemma SkipAdvances(s: GuildState, sink: Sink)
    requires Valid(s) && sink.present && sink.playing
    ensures |s.queue| == 0 ==>
      Skip(s, sink).played == Some(Idle) && Skip(s, sink).state.queue == [] && Skip(s, sink).state.prevSongs == s.prevSongs
    ensures !s.loop && |s.queue| > 0 ==>
      var r := Skip(s, sink);
      && r.played == Some(Handed(s.queue[0]))
      && r.state.queue == s.queue[1..]
      && |r.state.prevSongs| > 0 && r.state.prevSongs[|r.state.prevSongs| - 1] == s.queue[0]
  {
    if !s.loop && |s.queue| > 0 {
      AdvanceDequeues(s);
    }
  }

  /**
   * `prev` while playing with loop on: two entries move back to the queue
   * front, and the completion replays the entry before them, which is two
   * before the playing track; with exactly two entries the history is left
   * empty and the replay raises IndexError.
   */
  lemma PrevUnderLoop(s: GuildState, sink: Sink)
    requires Valid(s) && s.loop && |s.prevSongs| >= 2 && sink.present && sink.playing
    ensures var n := |s.prevSongs|;
      && Previous(s, sink).state.queue == s.prevSongs[n - 2..] + s.queue
      && Previous(s, sink).state.prevSongs == s.prevSongs[..n - 2]
    ensures |s.prevSongs| == 2 ==> Previous(s, sink).played == Some(ReplayFailed)
    ensures |s.prevSongs| > 2 ==> Previous(s, sink).played == Some(Handed(s.prevSongs[|s.prevSongs| - 3]))
  {
    StepBackOrder(s);
    var n := |s.prevSongs|;
    var s1 := StepBack(s, true);
    assert |s1.queue| > 0 && s1.hasPrevSongs && s1.loop;
    if n > 2 {
      assert s1.prevSongs[|s1.prevSongs| - 1] == s.prevSongs[n - 3];
    }
  }

  /** The completion that `voice_client.stop()` fires after `stop`/`leave` finds nothing to play. */
  lemma ClearThenAdvance(s: GuildState)
    requires s.hasPrevSongs
    ensures Advance(Clear(s)) == Advanced(Clear(s), NothingQueued)
  {
  }

  /** The last `n` elements of `xs`, or all of them. */
  function LastN<T>(xs: seq<T>, n: nat): (r: seq<T>)
  {
    if |xs| <= n then xs else xs[|xs| - n..]
  }

  /** One `play` per track, each arriving when the sink is idle, so each is played at once. */
  function PlayEach(s: GuildState, ts: seq<Track>, sink: Sink): GuildState
    requires !sink.playing
    decreases |ts|
  {
    if |ts| == 0 then s else PlayEach(AddTrack(s, ts[0], false, sink).state, ts[1..], sink)
  }

  /** One `play` on an idle guild with an empty queue plays the track at once and records it. */
  lemma PlayOne(s: GuildState, t: Track, sink: Sink)
    requires Valid(s) && !s.loop && |s.queue| == 0 && !sink.playing
    ensures AddTrack(s, t, false, sink).state.queue == []
    ensures AddTrack(s, t, false, sink).state.prevSongs == LastN(s.prevSongs + [t], MAX_PREV_SONGS_SIZE - 1)
    ensures Valid(AddTrack(s, t, false, sink).state) && !AddTrack(s, t, false, sink).state.loop
  {
    var s0 := PushBack(s, t);
    assert AddTrack(s, t, false, sink).state == Advance(s0).state;
    AdvanceDequeues(s0);
    assert s0.queue[0] == t && s0.queue[1..] == [];
  }

  /** The history keeps exactly the most recent 499 plays, evicting oldest first. */
  lemma {:induction false} HistoryKeepsLatest(s: GuildState, ts: seq<Track>, sink: Sink)
    requires Valid(s) && !s.loop && |s.queue| == 0 && !sink.playing
    ensures PlayEach(s, ts, sink).queue == []
    ensures PlayEach(s, ts, sink).prevSongs == LastN(s.prevSongs + ts, MAX_PREV_SONGS_SIZE - 1)
    decreases |ts|
  {
    if |ts| == 0 {
      assert s.prevSongs + ts == s.prevSongs;
    } else {
      var s1 := AddTrack(s, ts[0], false, sink).state;
      PlayOne(s, ts[0], sink);
      HistoryKeepsLatest(s1, ts[1..], sink);
      LastNAppend(s.prevSongs + [ts[0]], ts[1..], MAX_PREV_SONGS_SIZE - 1);
      HeadThenTail(s.prevSongs, ts);
    }
  }

  /** Appending the head and then the tail of `ys` appends `ys`. */
  lemma HeadThenTail<T>(xs: seq<T>, ys: seq<T>)
    requires |ys| > 0
    ensures xs + [ys[0]] + ys[1..] == xs + ys
  {
    assert [ys[0]] + ys[1..] == ys;
  }

  /** Taking the last `n` before appending more does not change the last `n` after. */
  lemma LastNAppend<T>(xs: seq<T>, ys: seq<T>, n: nat)
    ensures LastN(LastN(xs, n) + ys, n) == LastN(xs + ys, n)
  {
    if |xs| > n {
      var k := |xs| - n;
      var zs := xs + ys;
      assert LastN(xs, n) == xs[k..];
      assert zs[k..] == xs[k..] + ys;
      if |ys| == 0 {
        assert zs == xs;
      } else {
        assert LastN(xs[k..] + ys, n) == zs[k..][|ys|..];
        assert zs[k..][|ys|..] == zs[k + |ys|..];
      }
    }
  }

  /** While the sink plays, the album ingest only appends the resolved tracks in playlist order. */
  lemma {:induction false} IngestWhilePlaying(s: GuildState, songs: seq<Option<Track>>, sink: Sink)
    requires sink.present && sink.playing
    ensures Ingest(s, songs, sink).state == s.(queue := s.queue + Resolved(songs))
    ensures Ingest(s, songs, sink).sink == sink
    ensures Ingest(s, songs, sink).warnings == Failures(songs)
    ensures !Ingest(s, songs, sink).aborted
    decreases |songs|
  {
    if |songs| == 0 {
      assert s.queue + [] == s.queue;
    } else if songs[0].None? {
      IngestSkipsFailure(s, songs, sink);
      IngestWhilePlaying(s, songs[1..], sink);
    } else {
      var t := songs[0].value;
      IngestAppends(s, songs, sink);
      IngestWhilePlaying(PushBack(s, t), songs[1..], sink);
      assert s.queue + [t] + Resolved(songs[1..]) == s.queue + Resolved(songs);
    }
  }

  /** With loop off and room in the history, one resolved entry neither aborts nor loses a track. */
  lemma IngestOne(s: GuildState, t: Track, sink: Sink)
    requires Valid(s) && !s.loop && Playable(s.queue) && t.url.Some?
    requires |s.prevSongs| + |s.queue| + 1 < MAX_PREV_SONGS_SIZE
    ensures !Raises(Outcome(Advance(PushBack(s, t)).pick, sink))
    ensures var s2 := Advance(PushBack(s, t)).state;
      Valid(s2) && !s2.loop && Playable(s2.queue)
      && |s2.prevSongs| + |s2.queue| == |s.prevSongs| + |s.queue| + 1
      && s2.prevSongs + s2.queue == s.prevSongs + s.queue + [t]
  {
    var s1 := PushBack(s, t);
    PlayableAppend(s.queue, t);
    AdvanceDequeues(s1);
    AdvanceKeepsTimeline(s1);
    assert s1.prevSongs + s1.queue == s.prevSongs + s.queue + [t];
    assert s1.queue[0].url.Some?;
    assert Advance(s1).state.queue == s1.queue[1..];
    assert forall i :: 0 <= i < |s1.queue| - 1 ==> s1.queue[1..][i] == s1.queue[i + 1];
  }

  /** Every track in `ts` has a url, so none makes `play_next_in_queue` raise AttributeError. */
  predicate Playable(ts: seq<Track>) {
    forall i :: 0 <= i < |ts| ==> ts[i].url.Some?
  }

  /** Appending a track with a url keeps a queue playable. */
  lemma PlayableAppend(ts: seq<Track>, t: Track)
    requires Playable(ts) && t.url.Some?
    ensures Playable(ts + [t])
  {
    assert forall i :: 0 <= i < |ts| ==> (ts + [t])[i] == ts[i];
  }

  /** Every resolved answer has a url, so none makes `play_next_in_queue` raise AttributeError. */
  predicate HasUrls(songs: seq<Option<Track>>) {
    forall i :: 0 <= i < |songs| && songs[i].Some? ==> songs[i].value.url.Some?
  }

  /** Dropping the first answer keeps every url. */
  lemma HasUrlsTail(songs: seq<Option<Track>>)
    requires |songs| > 0 && HasUrls(songs)
    ensures HasUrls(songs[1..])
  {
    forall i | 0 <= i < |songs| - 1 && songs[1..][i].Some?
      ensures songs[1..][i].value.url.Some?
    {
      assert songs[1..][i] == songs[i + 1];
    }
  }

  /**
   * With loop off and room in the history, the album ingest never aborts,
   * warns once per failed entry, and puts every resolved track, in playlist
   * order, behind what was there: whatever got played is at the end of the
   * history, the rest in the queue.
   */
  lemma {:induction false} IngestKeepsOrder(s: GuildState, songs: seq<Option<Track>>, sink: Sink)
    requires Valid(s) && !s.loop && |s.prevSongs| + |s.queue| + |songs| < MAX_PREV_SONGS_SIZE
    requires Playable(s.queue) && HasUrls(songs)
    ensures !Ingest(s, songs, sink).aborted
    ensures Ingest(s, songs, sink).warnings == Failures(songs)
    ensures Ingest(s, songs, sink).state.prevSongs + Ingest(s, songs, sink).state.queue
         == s.prevSongs + s.queue + Resolved(songs)
    decreases |songs|, 1
  {
    if |songs| == 0 {
      assert s.prevSongs + s.queue + [] == s.prevSongs + s.queue;
    } else if songs[0].None? {
      IngestSkipsFailure(s, songs, sink);
      HasUrlsTail(songs);
      IngestKeepsOrder(s, songs[1..], sink);
    } else if sink.present && sink.playing {
      var t := songs[0].value;
      IngestAppends(s, songs, sink);
      HasUrlsTail(songs);
      PlayableAppend(s.queue, t);
      IngestKeepsOrder(PushBack(s, t), songs[1..], sink);
      assert s.prevSongs + (s.queue + [t]) + Resolved(songs[1..]) == s.prevSongs + s.queue + Resolved(songs);
    } else {
      IngestKeepsOrderPlaying(s, songs, sink);
    }
  }

  /** The case of `IngestKeepsOrder` where the entry is resolved and the sink idle, so it is played. */
  lemma {:induction false} IngestKeepsOrderPlaying(s: GuildState, songs: seq<Option<Track>>, sink: Sink)
    requires Valid(s) && !s.loop && |s.prevSongs| + |s.queue| + |songs| < MAX_PREV_SONGS_SIZE
    requires Playable(s.queue) && HasUrls(songs)
    requires |songs| > 0 && songs[0].Some? && !(sink.present && sink.playing)
    ensures !Ingest(s, songs, sink).aborted
    ensures Ingest(s, songs, sink).warnings == Failures(songs)
    ensures Ingest(s, songs, sink).state.prevSongs + Ingest(s, songs, sink).state.queue
         == s.prevSongs + s.queue + Resolved(songs)
    decreases |songs|, 0
  {
    var t := songs[0].value;
    assert t.url.Some?;
    IngestPlays(s, songs, sink);
    IngestOne(s, t, sink);
    HasUrlsTail(songs);
    var a := Advance(PushBack(s, t));
    var next := AfterPlay(sink, Outcome(a.pick, sink));
    assert Ingest(s, songs, sink) == Ingest(a.state, songs[1..], next);
    IngestKeepsOrder(a.state, songs[1..], next);
    assert s.prevSongs + s.queue + [t] + Resolved(songs[1..]) == s.prevSongs + s.queue + Resolved(songs);
  }

  /** The trace A, B, C begins: `play` A on a new entry with an idle sink starts A. */
  lemma TraceStart(a: Track, idle: Sink)
    requires !idle.playing && (idle.present || idle.canJoin)
    ensures AddTrack(NewEntry, a, false, idle) == Added(GuildState([], [a], true, false), Some(Handed(a)))
  {
    assert Advance(PushBack(NewEntry, a)) == Advanced(GuildState([], [a], true, false), Dequeued(a));
  }

  /** The trace goes on: B and C queue while A plays, A ends and starts B, `skip` starts C. */
  lemma TraceForward(a: Track, b: Track, c: Track, busy: Sink)
    requires busy.present && busy.playing
    ensures AddTrack(GuildState([], [a], true, false), b, false, busy).state == GuildState([b], [a], true, false)
    ensures AddTrack(GuildState([b], [a], true, false), c, false, busy).state == GuildState([b, c], [a], true, false)
    ensures Advance(GuildState([b, c], [a], true, false)).state == GuildState([c], [a, b], true, false)
    ensures Skip(GuildState([c], [a, b], true, false), busy) == Added(GuildState([], [a, b, c], true, false), Some(Handed(c)))
  {
    assert [b, c][1..] == [c] && [a] + [b] == [a, b];
    assert [c][1..] == [] && [a, b] + [c] == [a, b, c];
    assert Advance(GuildState([c], [a, b], true, false)) == Advanced(GuildState([], [a, b, c], true, false), Dequeued(c));
  }

  /** The second half of the trace: `prev` twice while playing starts B, then A. */
  lemma TraceBack(a: Track, b: Track, c: Track, busy: Sink)
    requires busy.present && busy.playing
    ensures Previous(GuildState([], [a, b, c], true, false), busy) == Added(GuildState([c], [a, b], true, false), Some(Handed(b)))
    ensures Previous(GuildState([c], [a, b], true, false), busy) == Added(GuildState([b, c], [a], true, false), Some(Handed(a)))
  {
    BackToB(a, b, c, busy);
    BackToA(a, b, c, busy);
  }

  /** The first `prev` of the trace: C goes back to the queue and B replays. */
  lemma BackToB(a: Track, b: Track, c: Track, busy: Sink)
    requires busy.present && busy.playing
    ensures Previous(GuildState([], [a, b, c], true, false), busy) == Added(GuildState([c], [a, b], true, false), Some(Handed(b)))
  {
    assert [a, b, c][..2] == [a, b] && [a, b][..1] == [a];
    assert StepBack(GuildState([], [a, b, c], true, false), true) == GuildState([b, c], [a], true, false);
    assert Advance(GuildState([b, c], [a], true, false)) == Advanced(GuildState([c], [a, b], true, false), Dequeued(b));
  }

  /** The second `prev` of the trace: B goes back to the queue and A replays. */
  lemma BackToA(a: Track, b: Track, c: Track, busy: Sink)
    requires busy.present && busy.playing
    ensures Previous(GuildState([c], [a, b], true, false), busy) == Added(GuildState([b, c], [a], true, false), Some(Handed(a)))
  {
    assert [a, b][..0] == [] && [b] + [c] == [b, c] && [a] + [b, c] == [a, b, c];
    assert StepBack(GuildState([c], [a, b], true, false), true) == GuildState([a, b, c], [], true, false);
    assert Advance(GuildState([a, b, c], [], true, false)) == Advanced(GuildState([b, c], [a], true, false), Dequeued(a));
  }

  /**
   * The trace A, B, C: `play` of A on an idle guild starts A, B and C queue
   * behind it, A's completion starts B, `skip` starts C; then `prev` twice,
   * each while playing, starts B and then A, leaving B and C queued.
   */
  lemma ThreeTrackTrace(a: Track, b: Track, c: Track, idle: Sink, busy: Sink)
    requires !idle.playing && (idle.present || idle.canJoin) && busy.present && busy.playing
    ensures var s1 := AddTrack(NewEntry, a, false, idle);
      var s2 := AddTrack(s1.state, b, false, busy).state;
      var s3 := AddTrack(s2, c, false, busy).state;
      var s4 := Advance(s3).state;
      var s5 := Skip(s4, busy);
      var s6 := Previous(s5.state, busy);
      var s7 := Previous(s6.state, busy);
      && s1.played == Some(Handed(a)) && s1.state.prevSongs == [a] && s1.state.queue == []
      && s3.queue == [b, c]
      && s4.prevSongs == [a, b] && s4.queue == [c]
      && s5.played == Some(Handed(c)) && s5.state.prevSongs == [a, b, c] && s5.state.queue == []
      && s6.played == Some(Handed(b)) && s6.state.prevSongs == [a, b] && s6.state.queue == [c]
      && s7.played == Some(Handed(a)) && s7.state.prevSongs == [a] && s7.state.queue == [b, c]
  {
    TraceStart(a, idle);
    TraceForward(a, b, c, busy);
    TraceBack(a, b, c, busy);
  }
}

=== FILE: queue_view.dfy ===
/**
 * `format_queue`: the text the `/queue` command shows. The history minus its
 * last entry is listed most recent first, then the playing track (the last
 * history entry) marked with a triangle, then the pending queue; each list is
 * cut to a window and a counter line tells how many entries are hidden.
 */
module QueueView {
  import opened Text
  import opened Tracks

  const EMPTY_MESSAGE: string := "Die Wiedergabeliste ist leer"
  const DEFAULT_MAX_LEN: int := 30
  const DEFAULT_MAX_WIDTH: int := 35

  /** One entry, `"title - artist"`, cut with the slice `[:maxWidth - 3]`. */
  function Entry(t: Track, maxWidth: int): (r: string)
    ensures r <= t.title + " - " + t.artist
    ensures maxWidth >= 3 ==> |r| == Min(maxWidth - 3, |t.title| + 3 + |t.artist|)
  {
    PySlice(t.title + " - " + t.artist, maxWidth - 3)
  }

  function Min(a: int, b: int): int {
    if a < b then a else b
  }

  function Entries(ts: seq<Track>, maxWidth: int): (r: seq<string>)
    ensures |r| == |ts|
    ensures forall i :: 0 <= i < |ts| ==> r[i] == Entry(ts[i], maxWidth)
  {
    seq(|ts|, i requires 0 <= i < |ts| => Entry(ts[i], maxWidth))
  }

  /** What the listing is made of, before it is rendered as text. */
  datatype Listing = Listing(
    hiddenPast: nat,        // earlier history entries left out
    past: seq<string>,      // shown earlier history entries, most recent first
    current: string,        // the playing entry, "" if none
    upcoming: seq<string>,  // shown queue entries, next first
    hiddenUpcoming: nat)    // queue entries left out

  /**
   * The listing for history `prev` and queue `queue`. The windows are the
   * slices `[:maxLen // 3]` and `[:2 * maxLen // 3]`; Python's floor division
   * by 3 is Dafny's `/ 3`, since the divisor is positive.
   */
  function Layout(prev: seq<Track>, queue: seq<Track>, maxLen: int, maxWidth: int): (v: Listing)
    ensures |prev| == 0 ==> v.current == "" && v.past == [] && v.hiddenPast == 0
    ensures |prev| > 0 ==> v.current == Entry(prev[|prev| - 1], maxWidth)
    ensures |prev| > 0 ==> |v.past| + v.hiddenPast == |prev| - 1
    ensures forall i :: 0 <= i < |v.past| ==> v.past[i] == Entry(prev[|prev| - 2 - i], maxWidth)
    ensures |v.upcoming| + v.hiddenUpcoming == |queue|
    ensures forall i :: 0 <= i < |v.upcoming| ==> v.upcoming[i] == Entry(queue[i], maxWidth)
    ensures maxLen >= 0 && |prev| > 0 ==> |v.past| == Min(maxLen / 3, |prev| - 1)
    ensures maxLen >= 0 ==> |v.upcoming| == Min(2 * maxLen / 3, |queue|)
  {
    var earlier := if |prev| > 0 then prev[..|prev| - 1] else [];
    var recentFirst := Reverse(Entries(earlier, maxWidth));
    var past := PySlice(recentFirst, maxLen / 3);
    var upcoming := PySlice(Entries(queue, maxWidth), 2 * maxLen / 3);
    var current := if |prev| > 0 then Entry(prev[|prev| - 1], maxWidth) else "";
    Listing(|recentFirst| - |past|, past, current, upcoming, |queue| - |upcoming|)
  }

  /** The line `"... k - weitere Songs"`, or nothing when no entry is hidden. */
  function MoreLine(hidden: nat): string {
    if hidden == 0 then "" else "... " + NatToString(hidden) + " - weitere Songs\n"
  }

  /** One `"- entry"` line per element, in order. */
  function Bullets(xs: seq<string>): string {
    if |xs| == 0 then "" else Bullets(xs[..|xs| - 1]) + "- " + xs[|xs| - 1] + "\n"
  }

  /** The line for the playing entry; an empty entry is falsy and not shown. */
  function NowLine(current: string): string {
    if current == "" then "" else "\U{25B6} " + current + "\n"
  }

  function Render(v: Listing): string {
    MoreLine(v.hiddenPast) + Bullets(v.past) + NowLine(v.current) + Bullets(v.upcoming) + MoreLine(v.hiddenUpcoming)
  }

  /** One of `format_queue`'s `for element in ...: message += f"- {element}\n"` loops. */
  method AppendBullets(message: string, xs: seq<string>) returns (r: string)
    ensures r == message + Bullets(xs)
  {
    r := message;
    for i := 0 to |xs|
      invariant r == message + Bullets(xs[..i])
    {
      assert xs[..i + 1][..i] == xs[..i];
      r := r + "- " + xs[i] + "\n";
    }
    assert xs[..|xs|] == xs;
  }

  /** The message-building half of `format_queue`: one `+=` per line. */
  method RenderListing(v: Listing) returns (message: string)
    ensures message == Render(v)
  {
    message := "";
    if v.hiddenPast != 0 {
      message := message + MoreLine(v.hiddenPast);
    }
    assert message == MoreLine(v.hiddenPast);
    message := AppendBullets(message, v.past);
    ghost var shown := message;
    if v.current != "" {
      message := message + NowLine(v.current);
    }
    assert message == shown + NowLine(v.current);
    message := AppendBullets(message, v.upcoming);
    shown := message;
    if v.hiddenUpcoming != 0 {
      message := message + MoreLine(v.hiddenUpcoming);
    }
    assert message == shown + MoreLine(v.hiddenUpcoming);
  }

  /**
   * `format_queue`, step by step as `bot.py` computes it: the entries,
   * the pop of the playing one, the reversal and the two windows; then the
   * message is built line by line.
   */
  method FormatQueue(prev: seq<Track>, queue: seq<Track>, maxLen: int, maxWidth: int) returns (message: string)
    ensures |prev| == 0 && |queue| == 0 ==> message == EMPTY_MESSAGE
    ensures |prev| > 0 || |queue| > 0 ==> message == Render(Layout(prev, queue, maxLen, maxWidth))
  {
    if |prev| == 0 && |queue| == 0 {
      return EMPTY_MESSAGE;
    }
    var p := Entries(prev, maxWidth);
    var q := Entries(queue, maxWidth);
    var current := "";
    if |p| > 0 {
      current := p[|p| - 1];
      p := p[..|p| - 1];
      assert p == Entries(prev[..|prev| - 1], maxWidth);
    }
    p := Reverse(p);
    var pShort := PySlice(p, maxLen / 3);
    var qShort := PySlice(q, 2 * maxLen / 3);
    assert Layout(prev, queue, maxLen, maxWidth) == Listing(|p| - |pShort|, pShort, current, qShort, |q| - |qShort|);
    message := RenderListing(Listing(|p| - |pShort|, pShort, current, qShort, |q| - |qShort|));
  }

  /** With the defaults the listing shows at most 10 earlier and 20 pending entries, each at most 32 characters. */
  lemma DefaultWindow(prev: seq<Track>, queue: seq<Track>)
    ensures var v := Layout(prev, queue, DEFAULT_MAX_LEN, DEFAULT_MAX_WIDTH);
      && |v.past| <= 10 && |v.upcoming| <= 20 && |v.current| <= 32
      && (forall i :: 0 <= i < |v.past| ==> |v.past[i]| <= 32)
      && (forall i :: 0 <= i < |v.upcoming| ==> |v.upcoming[i]| <= 32)
  {
  }
}

=== FILE: registry.dfy ===
/**
 * `music_queues`: the dictionary from guild id to that guild's entry, and
 * the command handlers, each of which touches one guild's entry only. An
 * entry is created lazily by the enqueueing commands and never removed.
 */
module Registries {
  import opened Options
  import opened Tracks
  import opened QueueView
  import opened GuildQueues
  import P = Playback

  type GuildId = int

  /** An exception the handler raises instead of replying. */
  datatype PyError = KeyError | TypeError

  /** What a handler answers, or why it stops. */
  datatype Reply =
    | SongNotFound                    // "Konnte den Song nicht finden ..."
    | Queued(played: Option<P.Played>) // "... hinzugefügt", then what play_next_in_queue did
    | PlaylistNotFound                // play-album returns without a message
    | AlbumQueued(warnings: nat, aborted: bool)
    | Skipped(played: Option<P.Played>) // "Song übersprungen", then what the completion callback did
    | NothingPlaying                  // "Es wird gerade nichts abgespielt"
    | NoVoiceClient                   // "Etwas ist schiefgelaufen"
    | NoPrevious                      // "Es gibt keinen vorherigen Song"
    | WentBack(played: Option<P.Played>) // "Zum vorherigen Song gesprungen"
    | Stopped                         // "Wiedergabe gestoppt und Warteschlange geleert."
    | NothingToStop                   // "Nichts zu stoppen."
    | LoopIs(enabled: bool)           // "Endlosschleife ist ... aktiviert"
    | NoQueue                         // "Es gibt keine Wiedergabeliste"
    | QueueText(text: string)         // the format_queue message
    | Raised(error: PyError)
    | CallbackFailed                  // the completion callback's play_next_in_queue raised KeyError

  /** An absent entry, for the handlers that create one, is a new one. */
  function EntryOf(m: map<GuildId, P.GuildState>, g: GuildId): P.GuildState {
    if g in m then m[g] else P.NewEntry
  }

  /** A second update of the same key overrides the first. */
  lemma UpdateTwice<K, V>(m: map<K, V>, k: K, x: V, y: V)
    ensures m[k := x][k := y] == m[k := y]
  {
  }

  class Registry {
    var queues: map<GuildId, GuildQueue>

    ghost function Objects(): set<GuildQueue>
      reads this
    {
      set g | g in queues :: queues[g]
    }

    /** Every entry keeps its invariant, and no two guilds share an entry. */
    ghost predicate Valid()
      reads this, Objects()
    {
      && (forall g :: g in queues ==> queues[g].Valid())
      && (forall g, h :: g in queues && h in queues && g != h ==> queues[g] != queues[h])
    }

    /** Every guild's entry as a value. */
    ghost function States(): map<GuildId, P.GuildState>
      reads this, Objects()
    {
      map g | g in queues :: queues[g].State()
    }

    /**
     * The handler changed guild `g` to `s` and nothing else: no entry of
     * another guild, no entry replaced by another object, none removed; a
     * new entry is a fresh object.
     */
    twostate predicate Changed(g: GuildId, s: P.GuildState)
      reads this, Objects()
    {
      && g in queues
      && queues.Keys == old(queues).Keys + {g}
      && (forall h :: h in old(queues) ==> queues[h] == old(queues)[h])
      && (g !in old(queues) ==> fresh(queues[g]))
      && States() == old(States())[g := s]
    }

    /** When only guild `g`'s entry object has changed, the other entries' states have not. */
    twostate lemma OnlyEntryChanged(g: GuildId)
      requires old(Valid()) && g in old(queues) && queues == old(queues)
      requires forall h :: h in queues && h != g ==> unchanged(queues[h])
      requires queues[g].Valid()
      ensures Valid()
      ensures States() == old(States())[g := queues[g].State()]
    {
      var now, was := States(), old(States())[g := queues[g].State()];
      assert now.Keys == was.Keys;
      forall h | h in now
        ensures now[h] == was[h]
      {
        if h != g {
          assert queues[h] != queues[g];
          assert now[h] == queues[h].State() == old(queues[h].State());
        }
      }
    }

    constructor ()
      ensures Valid() && queues == map[]
    {
      queues := map[];
    }

    /** `if guild_id not in music_queues: music_queues[guild_id] = {...}`. */
    method GetOrCreate(g: GuildId) returns (q: GuildQueue)
      requires Valid()
      modifies this
      ensures Valid() && Changed(g, EntryOf(old(States()), g))
      ensures q == queues[g]
    {
      if g in queues {
        q := queues[g];
      } else {
        q := new GuildQueue();
        queues := queues[g := q];
      }
    }

    /** What the enqueueing commands share: create the entry if needed, enqueue `t`, start playback if idle. */
    method Enqueue(g: GuildId, t: Track, atFront: bool, sink: P.Sink) returns (played: Option<P.Played>)
      requires Valid()
      modifies this, Objects()
      ensures Valid()
      ensures var a := P.AddTrack(EntryOf(old(States()), g), t, atFront, sink);
        Changed(g, a.state) && played == a.played
    {
      ghost var before, entry := States(), EntryOf(States(), g);
      ghost var a := P.AddTrack(entry, t, atFront, sink);
      var q := GetOrCreate(g);
      ghost var created := States();
      assert q.State() == created[g] == entry;
      label created:
      played := q.Add(t, atFront, sink);
      assert q.State() == a.state && played == a.played;
      OnlyEntryChanged@created(g);
      UpdateTwice(before, g, entry, a.state);
    }

    /** `play`: resolve, enqueue at the back, start playback if idle. */
    method Play(g: GuildId, resolved: Option<Info>, sink: P.Sink) returns (r: Reply)
      requires Valid()
      modifies this, Objects()
      ensures Valid()
      ensures resolved.None? ==> r == SongNotFound && queues == old(queues) && States() == old(States())
      ensures resolved.Some? ==>
        var a := P.AddTrack(EntryOf(old(States()), g), MinimizeInfo(resolved.value), false, sink);
        Changed(g, a.state) && r == Queued(a.played)
    {
      if resolved.None? {
        return SongNotFound;
      }
      var played := Enqueue(g, MinimizeInfo(resolved.value), false, sink);
      r := Queued(played);
    }

    /** `play-next`: resolve, insert at the queue front, start playback if idle. */
    method PlayNext(g: GuildId, resolved: Option<Info>, sink: P.Sink) returns (r: Reply)
      requires Valid()
      modifies this, Objects()
      ensures Valid()
      ensures resolved.None? ==> r == SongNotFound && queues == old(queues) && States() == old(States())
      ensures resolved.Some? ==>
        var a := P.AddTrack(EntryOf(old(States()), g), MinimizeInfo(resolved.value), true, sink);
        Changed(g, a.state) && r == Queued(a.played)
    {
      if resolved.None? {
        return SongNotFound;
      }
      var played := Enqueue(g, MinimizeInfo(resolved.value), true, sink);
      r := Queued(played);
    }

    /** `play-file`: the saved upload `temp_audio/<fileName>` goes to the back of the queue. */
    method PlayFile(g: GuildId, fileName: string, userName: string, sink: P.Sink) returns (r: Reply)
      requires Valid()
      modifies this, Objects()
      ensures Valid()
      ensures var a := P.AddTrack(EntryOf(old(States()), g), MinimizeInfo(FileInfo(fileName, userName)), false, sink);
        Changed(g, a.state) && r == Queued(a.played)
    {
      var played := Enqueue(g, MinimizeInfo(FileInfo(fileName, userName)), false, sink);
      r := Queued(played);
    }

    /**
     * `play-album`: without a playlist it returns silently; otherwise each
     * entry's resolution is enqueued in order or, on failure, warned about
     * and skipped.
     */
    method PlayAlbum(g: GuildId, playlist: Option<seq<Option<Info>>>, sink: P.Sink) returns (r: Reply)
      requires Valid()
      modifies this, Objects()
      ensures Valid()
      ensures playlist.None? ==> r == PlaylistNotFound && queues == old(queues) && States() == old(States())
      ensures playlist.Some? ==>
        var i := P.Ingest(EntryOf(old(States()), g), MinimizeAll(playlist.value), sink);
        Changed(g, i.state) && r == AlbumQueued(i.warnings, i.aborted)
    {
      if playlist.None? {
        return PlaylistNotFound;
      }
      ghost var before, entry := States(), EntryOf(States(), g);
      ghost var i := P.Ingest(entry, MinimizeAll(playlist.value), sink);
      var q := GetOrCreate(g);
      ghost var created := States();
      assert q.State() == created[g] == entry;
      label created:
      var warnings, aborted := q.Ingest(playlist.value, sink);
      assert q.State() == i.state;
      OnlyEntryChanged@created(g);
      UpdateTwice(before, g, entry, i.state);
      r := AlbumQueued(warnings, aborted);
    }

    /**
     * The `after` callback of `voice_client.play`: `play_next_in_queue` for
     * the guild again; it raises KeyError (giving `None`) if the guild has
     * no entry.
     */
    method Finished(g: GuildId, sink: P.Sink) returns (played: Option<P.Played>)
      requires Valid()
      modifies Objects()
      ensures Valid()
      ensures g !in old(queues) ==> played == None && States() == old(States())
      ensures g in old(queues) ==>
        var a := P.Advance(old(States())[g]);
        Changed(g, a.state) && played == Some(P.Outcome(a.pick, sink))
    {
      if g !in queues {
        return None;
      }
      var q := queues[g];
      assert q.State() == States()[g];
      var p := q.Advance(sink);
      OnlyEntryChanged(g);
      played := Some(p);
    }

    /** `skip` (command and button): stop a playing sink; its completion callback advances. */
    method Skip(g: GuildId, sink: P.Sink) returns (r: Reply)
      requires Valid()
      modifies Objects()
      ensures Valid()
      ensures !(sink.present && sink.playing) ==> r == NothingPlaying && States() == old(States())
      ensures sink.present && sink.playing && g !in old(queues) ==> r == Skipped(None) && States() == old(States())
      ensures sink.present && sink.playing && g in old(queues) ==>
        var k := P.Skip(old(States())[g], sink);
        Changed(g, k.state) && r == Skipped(k.played)
    {
      if !(sink.present && sink.playing) {
        return NothingPlaying;
      }
      if g !in queues {
        return Skipped(None);
      }
      var q := queues[g];
      assert q.State() == States()[g];
      var played := q.Skip(sink);
      OnlyEntryChanged(g);
      r := Skipped(played);
    }

    /**
     * `prev` (command and button): needs a voice client and an entry with a
     * history key, and does nothing with fewer than two history entries.
     */
    method Prev(g: GuildId, sink: P.Sink) returns (r: Reply)
      requires Valid()
      modifies Objects()
      ensures Valid()
      ensures !sink.present ==> r == NoVoiceClient && States() == old(States())
      ensures sink.present && (g !in old(queues) || !old(States())[g].hasPrevSongs) ==>
        r == Raised(KeyError) && States() == old(States())
      ensures sink.present && g in old(queues) && old(States())[g].hasPrevSongs && |old(States())[g].prevSongs| < 2 ==>
        r == NoPrevious && States() == old(States())
      ensures sink.present && g in old(queues) && |old(States())[g].prevSongs| >= 2 ==>
        var b := P.Previous(old(States())[g], sink);
        Changed(g, b.state) && r == WentBack(b.played)
    {
      if !sink.present {
        return NoVoiceClient;
      }
      if g !in queues || !queues[g].hasPrevSongs {
        return Raised(KeyError);
      }
      var q := queues[g];
      assert q.State() == States()[g];
      if |q.prevSongs| < 2 {
        return NoPrevious;
      }
      var played := q.Previous(sink);
      OnlyEntryChanged(g);
      r := WentBack(played);
    }

    /**
     * `leave` and the stop button: empty queue and history of an existing
     * entry (KeyError if the history key is missing, after the queue is
     * emptied), then stop and disconnect a client that exists and is connected. The loop flag stays.
     */
    method Leave(g: GuildId, sink: P.Sink) returns (r: Reply)
      requires Valid()
      modifies Objects()
      ensures Valid()
      ensures g !in old(queues) ==> States() == old(States()) && r == (if sink.present && sink.isConnected then Stopped else NothingToStop)
      ensures g in old(queues) ==> Changed(g, P.Clear(old(States())[g]))
      ensures g in old(queues) ==>
        r == if !old(States())[g].hasPrevSongs then Raised(KeyError) else if sink.present && sink.isConnected then Stopped else NothingToStop
    {
      if g in queues {
        var q := queues[g];
        assert q.State() == States()[g];
        var ok := q.Clear();
        OnlyEntryChanged(g);
        if !ok {
          return Raised(KeyError);
        }
      }
      r := if sink.present && sink.isConnected then Stopped else NothingToStop;
    }

    /** The loop button: only while something plays or is paused; flips the flag. */
    method LoopButton(g: GuildId, sink: P.Sink) returns (r: Reply)
      requires Valid()
      modifies Objects()
      ensures Valid()
      ensures !sink.present || !(sink.playing || sink.paused) || g !in old(queues) ==>
        r == NothingPlaying && States() == old(States())
      ensures sink.present && (sink.playing || sink.paused) && g in old(queues) ==>
        Changed(g, P.ToggleLoop(old(States())[g])) && r == LoopIs(!old(States())[g].loop)
    {
      if !sink.present || !(sink.playing || sink.paused) || g !in queues {
        return NothingPlaying;
      }
      var q := queues[g];
      assert q.State() == States()[g];
      var enabled := q.ToggleLoop();
      OnlyEntryChanged(g);
      r := LoopIs(enabled);
    }

    /** `loop-on` and `loop-off`: KeyError for a guild without an entry. */
    method SetLoop(g: GuildId, enabled: bool) returns (r: Reply)
      requires Valid()
      modifies Objects()
      ensures Valid()
      ensures g !in old(queues) ==> r == Raised(KeyError) && States() == old(States())
      ensures g in old(queues) ==> Changed(g, P.SetLoop(old(States())[g], enabled)) && r == LoopIs(enabled)
    {
      if g !in queues {
        return Raised(KeyError);
      }
      var q := queues[g];
      assert q.State() == States()[g];
      q.SetLoop(enabled);
      OnlyEntryChanged(g);
      r := LoopIs(enabled);
    }

    /** `loop-status`: reports the flag, an absent key as off. */
    method LoopStatus(g: GuildId) returns (r: Reply)
      requires Valid()
      ensures g !in queues ==> r == Raised(KeyError)
      ensures g in queues ==> r == LoopIs(queues[g].loop)
    {
      if g !in queues {
        return Raised(KeyError);
      }
      r := LoopIs(queues[g].loop);
    }

    /**
     * `queue`: the `format_queue` listing with the default window. Without a
     * history key the history is `None`, which reads as empty when the queue
     * is empty too and raises TypeError otherwise.
     */
    method ShowQueue(g: GuildId) returns (r: Reply)
      requires Valid()
      ensures g !in queues ==> r == NoQueue
      ensures g in queues && !queues[g].hasPrevSongs && |queues[g].queue| > 0 ==> r == Raised(TypeError)
      ensures g in queues && |queues[g].prevSongs| == 0 && |queues[g].queue| == 0 ==> r == QueueText(EMPTY_MESSAGE)
      ensures g in queues && queues[g].hasPrevSongs && (|queues[g].prevSongs| > 0 || |queues[g].queue| > 0) ==>
        r == QueueText(Render(Layout(queues[g].prevSongs, queues[g].queue, DEFAULT_MAX_LEN, DEFAULT_MAX_WIDTH)))
    {
      if g !in queues {
        return NoQueue;
      }
      var q := queues[g];
      if !q.hasPrevSongs && |q.queue| > 0 {
        return Raised(TypeError);
      }
      var message := FormatQueue(q.prevSongs, q.queue, DEFAULT_MAX_LEN, DEFAULT_MAX_WIDTH);
      r := QueueText(message);
    }
  }
}

=== FILE: text.dfy ===
/**
 * The few Python string and list builtins the bot relies on, written out:
 * `str.strip()`, `str.replace(p, "")`, `str.startswith`/`endswith`, the
 * pieces `split(c)[-1]` and `split(c)[0]`, the slice `xs[:n]` and `str(n)`.
 */
module Text {

  /** The characters for which Python's `str.isspace()` holds; `strip()` removes these. */
  predicate IsSpace(c: char) {
    || c == ' ' || c == '\t' || c == '\n' || c == '\r' || c == '\U{B}' || c == '\U{C}'
    || '\U{1C}' <= c <= '\U{1F}'
    || c == '\U{85}' || c == '\U{A0}' || c == '\U{1680}'
    || '\U{2000}' <= c <= '\U{200A}'
    || c == '\U{2028}' || c == '\U{2029}' || c == '\U{202F}' || c == '\U{205F}' || c == '\U{3000}'
  }

  /** Length of the run of whitespace at the start of `s`. */
  function LeadingSpaces(s: string): (n: nat)
    ensures n <= |s|
    ensures forall i :: 0 <= i < n ==> IsSpace(s[i])
    ensures n < |s| ==> !IsSpace(s[n])
  {
    if |s| > 0 && IsSpace(s[0]) then 1 + LeadingSpaces(s[1..]) else 0
  }

  /** Length of the run of whitespace at the end of `s`. */
  function TrailingSpaces(s: string): (n: nat)
    ensures n <= |s|
    ensures forall i :: |s| - n <= i < |s| ==> IsSpace(s[i])
    ensures n < |s| ==> !IsSpace(s[|s| - n - 1])
  {
    if |s| > 0 && IsSpace(s[|s| - 1]) then 1 + TrailingSpaces(s[..|s| - 1]) else 0
  }

  /**
   * Python's `s.strip()`: the longest infix of `s` that neither starts nor
   * ends with whitespace, obtained by dropping whitespace only.
   */
  function Strip(s: string): (r: string)
    ensures LeadingSpaces(s) + |r| <= |s|
    ensures r == s[LeadingSpaces(s)..LeadingSpaces(s) + |r|]
    ensures forall i :: 0 <= i < LeadingSpaces(s) ==> IsSpace(s[i])
    ensures forall i :: LeadingSpaces(s) + |r| <= i < |s| ==> IsSpace(s[i])
    ensures r == [] || (!IsSpace(r[0]) && !IsSpace(r[|r| - 1]))
    ensures forall c :: c in r ==> c in s
  {
    var rest := s[LeadingSpaces(s)..];
    rest[..|rest| - TrailingSpaces(rest)]
  }

  predicate StartsWith(s: string, c: char) {
    |s| > 0 && s[0] == c
  }

  predicate EndsWith(s: string, c: char) {
    |s| > 0 && s[|s| - 1] == c
  }

  /** `p` occurs in `s` starting at some position. */
  predicate Occurs(p: string, s: string) {
    exists i :: 0 <= i <= |s| && p <= s[i..]
  }

  /**
   * Python's `s.replace(p, "")`: scanning from the left, every occurrence of
   * `p` that does not overlap an earlier removed one is dropped. An empty
   * `p` leaves `s` as it is (Python inserts "" between the characters).
   */
  function RemoveAll(s: string, p: string): (r: string)
    ensures |r| <= |s|
    ensures forall c :: c in r ==> c in s
    ensures |p| == 1 ==> p[0] !in r
    ensures !Occurs(p, s) ==> r == s
    decreases |s|
  {
    if |p| == 0 || |s| == 0 then s
    else if p <= s then
      assert Occurs(p, s) by { assert p <= s[0..]; }
      RemoveAll(s[|p|..], p)
    else
      assert !Occurs(p, s) ==> !Occurs(p, s[1..]) by {
        if Occurs(p, s[1..]) {
          var i :| 0 <= i <= |s[1..]| && p <= s[1..][i..];
          assert s[1..][i..] == s[i + 1..];
        }
      }
      [s[0]] + RemoveAll(s[1..], p)
  }

  /** An occurrence of `p` somewhere is removed: the result is shorter by at least `|p|`. */
  lemma {:induction false} RemoveAllShrinks(s: string, p: string)
    requires |p| > 0 && Occurs(p, s)
    ensures |RemoveAll(s, p)| + |p| <= |s|
    decreases |s|
  {
    if !(p <= s) {
      var i :| 0 <= i <= |s| && p <= s[i..];
      assert i > 0 && s[1..][i - 1..] == s[i..];
      RemoveAllShrinks(s[1..], p);
    }
  }

  /** Removing a single character drops every copy of it and keeps every other character. */
  lemma {:induction false} RemoveCharCounts(s: string, c: char)
    ensures multiset(RemoveAll(s, [c])) == multiset(s)[c := 0]
    decreases |s|
  {
    if |s| > 0 {
      assert s == [s[0]] + s[1..];
      RemoveCharCounts(s[1..], c);
    }
  }

  /** An occurrence of `p` at the very front is removed, and the rest is scanned afresh. */
  lemma RemoveAllLeading(p: string, s: string)
    requires |p| > 0
    ensures RemoveAll(p + s, p) == RemoveAll(s, p)
  {
    assert p <= p + s;
    assert (p + s)[|p|..] == s;
  }

  /** Stripping a string that is only padded with whitespace gives back the unpadded string. */
  lemma StripPadded(w: string, t: string)
    requires forall i :: 0 <= i < |w| ==> IsSpace(w[i])
    requires |t| > 0 && !IsSpace(t[0]) && !IsSpace(t[|t| - 1])
    ensures Strip(w + t) == t
  {
    var x := w + t;
    assert forall i :: 0 <= i < |w| ==> x[i] == w[i];
    assert x[|w|] == t[0] && x[|x| - 1] == t[|t| - 1];
    assert LeadingSpaces(x) == |w|;
  }

  /** Python's `s.split(c)[0]`: everything before the first `c`. */
  function BeforeFirst(s: string, c: char): (r: string)
    ensures r <= s
    ensures c !in r
    ensures |r| < |s| ==> s[|r|] == c
  {
    if |s| == 0 || s[0] == c then "" else [s[0]] + BeforeFirst(s[1..], c)
  }

  /** When the first `c` in `s` sits at index `k`, `split(c)[0]` is the part before it. */
  lemma BeforeFirstAt(s: string, c: char, k: nat)
    requires k < |s| && s[k] == c && forall i :: 0 <= i < k ==> s[i] != c
    ensures BeforeFirst(s, c) == s[..k]
  {
  }

  /** Python's `s.split(c)[-1]`: everything after the last `c`. */
  function AfterLast(s: string, c: char): (r: string)
    ensures |r| <= |s| && r == s[|s| - |r|..]
    ensures c !in r
    ensures |r| < |s| ==> s[|s| - |r| - 1] == c
  {
    if |s| == 0 || s[|s| - 1] == c then "" else AfterLast(s[..|s| - 1], c) + [s[|s| - 1]]
  }

  /** Where Python's slice `xs[:n]` stops on a list of length `len`. */
  function SliceStop(len: nat, n: int): (k: nat)
    ensures k <= len
    ensures n >= 0 ==> k == if n < len then n else len
    ensures n < 0 ==> k == if len + n > 0 then len + n else 0
  {
    if n >= 0 then (if n < len then n else len)
    else if len + n > 0 then len + n else 0
  }

  /** Python's slice `xs[:n]`, where a negative `n` counts from the end. */
  function PySlice<T>(xs: seq<T>, n: int): (r: seq<T>)
    ensures r <= xs
    ensures |r| == SliceStop(|xs|, n)
  {
    xs[..SliceStop(|xs|, n)]
  }

  /** Python's `xs[::-1]`. */
  function Reverse<T>(xs: seq<T>): (r: seq<T>)
    ensures |r| == |xs|
    ensures forall i :: 0 <= i < |xs| ==> r[i] == xs[|xs| - 1 - i]
  {
    if |xs| == 0 then [] else [xs[|xs| - 1]] + Reverse(xs[..|xs| - 1])
  }

  /** The decimal digits of `n`, as Python's `f"{n}"` writes them. */
  function NatToString(n: nat): (r: string)
    ensures |r| > 0
    ensures r[0] == '0' ==> n == 0
    ensures forall i :: 0 <= i < |r| ==> '0' <= r[i] <= '9'
    decreases n
  {
    var d := "0123456789"[n % 10];
    if n < 10 then [d] else NatToString(n / 10) + [d]
  }

  /** Reads a string of decimal digits back as a number, as `int(s)` does. */
  function DigitsValue(s: string): (v: nat)
    requires forall i :: 0 <= i < |s| ==> '0' <= s[i] <= '9'
    decreases |s|
  {
    if |s| == 0 then 0
    else DigitsValue(s[..|s| - 1]) * 10 + ((s[|s| - 1] as int) - ('0' as int))
  }

  /** The digit character of `d` is the character `d` places after `'0'`. */
  lemma DigitChar(d: nat)
    requires d < 10
    ensures ("0123456789"[d] as int) - ('0' as int) == d
  {
  }

  /** `NatToString` writes `n` so that reading the digits back gives `n`. */
  lemma {:induction false} NatToStringRoundTrip(n: nat)
    ensures DigitsValue(NatToString(n)) == n
    decreases n
  {
    var r := NatToString(n);
    DigitChar(n % 10);
    if n >= 10 {
      NatToStringRoundTrip(n / 10);
      assert r[..|r| - 1] == NatToString(n / 10);
    }
  }
}

=== FILE: tracks.dfy ===
/**
 * Track metadata: the dictionary that the resolver returns, the reduced
 * track that the queues hold, `minimize_info` and the title that `play-file`
 * derives from a file name.
 */
module Tracks {
  import opened Options
  import opened Text

  /**
   * The keys of a resolver result that `minimize_info` looks at; `None` is a
   * key that is absent (or holds Python's `None`).
   */
  datatype Info = Info(
    url: Option<string>,
    title: Option<string>,
    altTitle: Option<string>,
    fullTitle: Option<string>,
    artist: Option<string>,
    creator: Option<string>,
    uploader: Option<string>,
    durationString: Option<string>)

  /** The reduced dictionary that the queue and the history hold. */
  datatype Track = Track(url: Option<string>, title: string, artist: string, durationString: string)

  /** The value is present and truthy (a non-empty string). */
  predicate Filled(o: Option<string>) {
    o.Some? && o.value != ""
  }

  /** Python's `a or b or c.get(key, "")` over three optional strings. */
  function FirstFilled(a: Option<string>, b: Option<string>, c: Option<string>): (r: string)
    ensures r != "" <==> Filled(a) || Filled(b) || Filled(c)
    ensures Filled(a) ==> r == a.value
    ensures !Filled(a) && Filled(b) ==> r == b.value
    ensures !Filled(a) && !Filled(b) ==> r == c.GetOr("")
  {
    if Filled(a) then a.value else if Filled(b) then b.value else c.GetOr("")
  }

  /** The title after the artist has been cut out and the ends stripped. */
  function WithoutArtist(title: string, artist: string): (r: string)
    ensures |r| <= |title|
    ensures forall c :: c in r ==> c in title
    ensures r == [] || (!IsSpace(r[0]) && !IsSpace(r[|r| - 1]))
  {
    Strip(RemoveAll(title, artist))
  }

  /** The dash clean-up: every `-` removed, then the ends stripped again. */
  function DropDashes(t: string): (r: string)
    ensures |r| <= |t|
    ensures forall c :: c in r ==> c in t
    ensures '-' !in r
    ensures r == [] || (!IsSpace(r[0]) && !IsSpace(r[|r| - 1]))
  {
    Strip(RemoveAll(t, "-"))
  }

  /** Whether the dash clean-up of `minimize_info` fires. */
  predicate DashBranch(title: string, artist: string) {
    && title != "" && artist != ""
    && (StartsWith(WithoutArtist(title, artist), '-') || EndsWith(WithoutArtist(title, artist), '-'))
  }

  /**
   * The title clean-up of `minimize_info`: only when both title and artist
   * are non-empty is the artist removed and the result stripped; if that
   * leaves a dash at either end, every dash goes and the result is stripped
   * again.
   */
  function CleanTitle(title: string, artist: string): (r: string)
    ensures title == "" || artist == "" ==> r == title
    ensures |r| <= |title|
    ensures forall c :: c in r ==> c in title
    ensures title != "" && artist != "" ==> r == [] || (!IsSpace(r[0]) && !IsSpace(r[|r| - 1]))
    ensures DashBranch(title, artist) ==> '-' !in r
    ensures DashBranch(title, artist) ==> r == DropDashes(WithoutArtist(title, artist))
    ensures title != "" && artist != "" && !DashBranch(title, artist) ==> r == WithoutArtist(title, artist)
  {
    if title != "" && artist != "" then
      var t := WithoutArtist(title, artist);
      if StartsWith(t, '-') || EndsWith(t, '-') then DropDashes(t) else t
    else
      title
  }

  /** No occurrence of a character the string does not hold. */
  lemma AbsentCharNotOccurs(c: char, s: string)
    requires c !in s
    ensures !Occurs([c], s)
  {
    forall i | 0 <= i <= |s|
      ensures !([c] <= s[i..])
    {
      if i < |s| {
        assert s[i..][0] == s[i];
      }
    }
  }

  /** Cutting an artist out of "<artist><rest>" leaves `rest` when the artist does not recur. */
  lemma CutArtist(artist: string, rest: string)
    requires artist != "" && !Occurs(artist, rest)
    ensures RemoveAll(artist + rest, artist) == rest
  {
    RemoveAllLeading(artist, rest);
  }

  /** Removing the dashes of "-<y>" leaves `y` when `y` holds none. */
  lemma DropDash(dash: string, y: string)
    requires dash == "-" && '-' !in y
    ensures RemoveAll(dash + y, dash) == y
  {
    RemoveAllLeading(dash, y);
    AbsentCharNotOccurs('-', y);
  }

  /**
   * The usual video title "<artist> - <song>": cutting out the artist leaves
   * " - <song>", stripping leaves a leading dash, so the dash branch fires
   * and the title becomes exactly the song.
   */
  lemma ArtistDashSong(artist: string, song: string)
    requires artist != "" && !Occurs(artist, " - " + song)
    requires song != "" && '-' !in song && !IsSpace(song[0]) && !IsSpace(song[|song| - 1])
    ensures CleanTitle(artist + " - " + song, artist) == song
  {
    var space, dash := " ", "-";
    var spaced := space + song;
    var dashed := dash + spaced;
    var title := artist + " - " + song;
    assert title == artist + (space + dashed);
    assert " - " + song == space + dashed;
    CutArtist(artist, space + dashed);
    StripPadded(space, dashed);
    assert WithoutArtist(title, artist) == dashed;
    assert StartsWith(dashed, '-');
    DropDash(dash, spaced);
    StripPadded(space, song);
    assert DropDashes(dashed) == song;
  }

  /**
   * `minimize_info`: reduces a resolver result to the four fields the bot
   * uses. The url and duration label are kept as they are (an absent label
   * reads as empty), the artist is taken by its fallback chain, and so is
   * the title, which stays unchanged unless both title and artist are
   * non-empty, never grows, and holds no dash once the dash clean-up fired.
   */
  function MinimizeInfo(info: Info): (r: Track)
    ensures var title := FirstFilled(info.title, info.altTitle, info.fullTitle);
      && r.url == info.url
      && r.durationString == info.durationString.GetOr("")
      && r.artist == FirstFilled(info.artist, info.creator, info.uploader)
      && r.title == CleanTitle(title, r.artist)
      && (title == "" || r.artist == "" ==> r.title == title)
      && |r.title| <= |title|
      && (forall c :: c in r.title ==> c in title)
      && (DashBranch(title, r.artist) ==> '-' !in r.title)
  {
    var title := FirstFilled(info.title, info.altTitle, info.fullTitle);
    var artist := FirstFilled(info.artist, info.creator, info.uploader);
    Track(info.url, CleanTitle(title, artist), artist, info.durationString.GetOr(""))
  }

  /** A video titled "<artist> - <song>" by that artist is queued under the title `song`. */
  lemma MinimizeArtistDashSong(info: Info, artist: string, song: string)
    requires info.title == Some(artist + " - " + song) && info.artist == Some(artist)
    requires artist != "" && !Occurs(artist, " - " + song)
    requires song != "" && '-' !in song && !IsSpace(song[0]) && !IsSpace(song[|song| - 1])
    ensures MinimizeInfo(info).title == song && MinimizeInfo(info).artist == artist
  {
    ArtistDashSong(artist, song);
  }

  /** Each resolver answer reduced by `minimize_info`; a failed lookup stays a failure. */
  function MinimizeAll(infos: seq<Option<Info>>): (r: seq<Option<Track>>)
    ensures |r| == |infos|
    ensures forall i :: 0 <= i < |infos| ==> r[i].Some? == infos[i].Some?
    ensures forall i :: 0 <= i < |infos| && infos[i].Some? ==> r[i] == Some(MinimizeInfo(infos[i].value))
  {
    seq(|infos|, i requires 0 <= i < |infos| => if infos[i].None? then None else Some(MinimizeInfo(infos[i].value)))
  }

  /** The directory uploaded files are saved to. */
  const TEMP_AUDIO: string := "temp_audio/"

  /** `file_path.split("/")[-1].split(".")[0]`: the last path component up to its first dot. */
  function FileTitle(path: string): (r: string)
    ensures '/' !in r && '.' !in r
    ensures var name := AfterLast(path, '/');
      r <= name && (|r| < |name| ==> name[|r|] == '.')
    ensures ('/' !in path && '.' !in path) ==> r == path
  {
    BeforeFirst(AfterLast(path, '/'), '.')
  }

  /**
   * The dictionary that `play-file` hands to `minimize_info`: the saved
   * path as url, the derived title and the uploader's name; its "duration"
   * key is not one `minimize_info` reads.
   */
  function FileInfo(fileName: string, userName: string): Info {
    var path := TEMP_AUDIO + fileName;
    Info(Some(path), Some(FileTitle(path)), None, None, None, None, Some(userName), None)
  }

  /** Whatever precedes a trailing separator does not matter to `AfterLast`. */
  lemma {:induction false} AfterLastPastSeparator(dir: string, name: string, c: char)
    requires |dir| > 0 && dir[|dir| - 1] == c
    ensures AfterLast(dir + name, c) == AfterLast(name, c)
    decreases |name|
  {
    if |name| == 0 {
      assert dir + name == dir;
    } else if name[|name| - 1] != c {
      var init := name[..|name| - 1];
      assert (dir + name)[..|dir + name| - 1] == dir + init;
      AfterLastPastSeparator(dir, init, c);
    }
  }

  /** A name without the separator is its own last component. */
  lemma AfterLastWithout(name: string, c: char)
    requires c !in name
    ensures AfterLast(name, c) == name
  {
  }

  /** The dictionary `play-file` builds, with the title worked out. */
  lemma FileInfoIs(fileName: string, userName: string)
    ensures FileInfo(fileName, userName)
         == Info(Some(TEMP_AUDIO + fileName), Some(BeforeFirst(AfterLast(fileName, '/'), '.')), None, None, None, None, Some(userName), None)
  {
    AfterLastPastSeparator(TEMP_AUDIO, fileName, '/');
  }

  /**
   * What `play-file` enqueues for an uploaded file: the saved path as url,
   * the uploader as artist, no duration label, and as title the name's last
   * component up to its first dot, cleaned of the uploader's name.
   */
  lemma FileTrack(fileName: string, userName: string)
    ensures MinimizeInfo(FileInfo(fileName, userName))
         == Track(Some(TEMP_AUDIO + fileName), CleanTitle(BeforeFirst(AfterLast(fileName, '/'), '.'), userName), userName, "")
  {
    var title := BeforeFirst(AfterLast(fileName, '/'), '.');
    FileInfoIs(fileName, userName);
    var info := Info(Some(TEMP_AUDIO + fileName), Some(title), None, None, None, None, Some(userName), None);
    assert FirstFilled(info.artist, info.creator, info.uploader) == userName;
    assert FirstFilled(info.title, info.altTitle, info.fullTitle) == title;
  }

  /** A plain upload name (no slash, as attachment names are) is titled by its part before the first dot. */
  lemma PlainFileTrack(fileName: string, userName: string)
    requires '/' !in fileName
    ensures MinimizeInfo(FileInfo(fileName, userName)).title == CleanTitle(BeforeFirst(fileName, '.'), userName)
  {
    FileTrack(fileName, userName);
    AfterLastWithout(fileName, '/');
  }

  /** An upload named `song.mp3` is titled `song`, cleaned of the uploader's name. */
  lemma SongFileTitle(fileName: string, userName: string)
    requires fileName == "song.mp3"
    ensures MinimizeInfo(FileInfo(fileName, userName)).title == CleanTitle("song", userName)
  {
    assert '/' !in fileName;
    PlainFileTrack(fileName, userName);
    assert fileName[0] == 's' && fileName[1] == 'o' && fileName[2] == 'n' && fileName[3] == 'g' && fileName[4] == '.';
    BeforeFirstAt(fileName, '.', 4);
    assert fileName[..4] == "song";
  }
}
